=== FILE: README.md ===
# MySQL Shell core, modelled in Dafny

This project models four pieces of MySQL Shell:

- **Read-Replica admission** (`Cluster.addReplicaInstance()`, in
  `modules/adminapi/cluster/add_replica_instance.cc`). The model covers the
  fail-fast validation order, the standalone and re-add decision, the
  `replicationSources` policy and the main-source choice, and the donor override.
  It also covers the compensation ("undo") ledger that records what to reverse,
  the metadata transaction with its canonical source list, the dry run, and the
  sync-timeout handling. Modules: `UndoLedger` (`undo_ledger.dfy`), `ReplicaChecks`
  (`replica_checks.dfy`) and `ReplicaAdmission` (`replica_admission.dfy`).
- **The X DevAPI `CollectionFind` chaining builder**
  (`modules/devapi/mod_mysqlx_collection_find.cc`). The model covers which method
  each previous call enables, what every chaining call writes into the find
  request, and how each call rejects bad input. Module: `CollectionFind`
  (`collection_find.dfy`).
- **The JavaScript completion provider**
  (`mysqlshdk/shellcore/provider_javascript.cc`). The model covers the
  `parse_until` scanner, which extracts the member chain under the cursor, and the
  prefix filtering of globals, keywords and members. Module: `JsCompletion`
  (`js_completion.dfy`).
- **The sequential logic of the Python bridge**
  (`mysqlshdk/scripting/python_context.cc`). The model covers the bounded copy
  into a wide-character buffer, running a list of statements, classifying
  interactive input that needs more lines, routing errors between the shell and
  Python, and the stdin line buffer behind `input()` and `sys.stdin.read(n)`.
  Module: `PythonBridge` (`python_bridge.dfy`).

`Common` (`common.dfy`) holds `Option`, `Outcome` and `Result`. The C++ code throws
exceptions; the model returns each failure as a value instead. Remote servers, the
console, the interpreter and the expression parser are not modelled. Where the
code needs their answer, the model takes that answer as a parameter: a record of
booleans, a function, or an input sequence.

## Model

| member | source | states |
|---|---|---|
| UndoLedger.Add | modules/adminapi/cluster/add_replica_instance.cc:404-409 | registering in the normal group returns a live handle to the new entry; the deferred group and the earlier entries are unchanged |
| UndoLedger.AddBack | modules/adminapi/cluster/add_replica_instance.cc:420-443 | registering in the deferred group returns a live handle to the new entry; the normal group and the earlier entries are unchanged |
| UndoLedger.Cancel | modules/adminapi/cluster/add_replica_instance.cc:450-452 | cancelling an entry leaves it registered but not live; every other entry is unchanged |
| UndoLedger.CancelledNeverRuns | modules/adminapi/cluster/add_replica_instance.cc:450-452 | a cancelled entry is never unwound, and cancelling does not change whether any other entry is unwound |
| UndoLedger.UnwindContainsOnlyLive | modules/adminapi/cluster/add_replica_instance.cc:404-409 | unwinding runs exactly the live entries |
| UndoLedger.UnwindOrderLaw | modules/adminapi/cluster/add_replica_instance.cc:567-573 | every deferred entry is unwound after every normal one; within a group the newest goes first; no entry is unwound twice |
| UndoLedger.UnwindActionsFollowOrder | modules/adminapi/cluster/add_replica_instance.cc:567-573 | the list of reversal actions matches the unwind order entry by entry |
| UndoLedger.LiveActionsMatchHandles | modules/adminapi/cluster/add_replica_instance.cc:567-573 | within one group, the live actions (newest first) are the actions of the live handles in that order |
| UndoLedger.LiveNewestFirstMembers | modules/adminapi/cluster/add_replica_instance.cc:567-573 | a handle is listed iff it is live; the list is strictly newest first |
| UndoLedger.AddRunsFirst | modules/adminapi/cluster/add_replica_instance.cc:550-555 | a new normal entry is unwound before everything already registered |
| UndoLedger.AddBackRunsAfterNormal | modules/adminapi/cluster/add_replica_instance.cc:567-573 | a new deferred entry is unwound after all normal entries and before the older deferred ones |
| UndoLedger.LiveActionsPrefix | modules/adminapi/cluster/add_replica_instance.cc:420-443 | adding entries to a group does not change what unwinding does with its existing entries |
| UndoLedger.LiveNewestFirstPrefix | modules/adminapi/cluster/add_replica_instance.cc:420-443 | the same, stated for the handles |
| ReplicaChecks.CheckStandalone | modules/adminapi/cluster/add_replica_instance.cc:62-129 | a refusal happens only for a target that holds metadata, and carries that target's kind with the already-managed error code |
| ReplicaChecks.StandaloneDecision | modules/adminapi/cluster/add_replica_instance.cc:62-129 | the target is accepted iff its metadata is empty, or it is an InnoDB Cluster instance that belongs to neither this Cluster nor this ClusterSet and whose own metadata names this Cluster or a Cluster of its ClusterSet |
| ReplicaChecks.MembersAreRefused | modules/adminapi/cluster/add_replica_instance.cc:70-91 | a current member of this Cluster or of this ClusterSet is refused even when its metadata would allow a re-add |
| ReplicaChecks.CheckSslMode | modules/adminapi/cluster/add_replica_instance.cc:261-294 | fails iff the mode is VERIFY_CA or VERIFY_IDENTITY, with a runtime error naming the mode |
| ReplicaChecks.CheckAuthType | modules/adminapi/cluster/add_replica_instance.cc:346-357 | passes iff the member authentication type is PASSWORD |
| ReplicaChecks.CheckSourceType | modules/adminapi/cluster/add_replica_instance.cc:150-170 | an unset source type resolves to PRIMARY; the check fails iff SECONDARY is requested and the Cluster has exactly one active member |
| ReplicaChecks.EntryFault | modules/adminapi/cluster/add_replica_instance.cc:193-249 | an entry of the source list passes iff it is reachable, is in the metadata as a group member, and is ONLINE |
| ReplicaChecks.FaultPrecedence | modules/adminapi/cluster/add_replica_instance.cc:193-249 | the reported fault is exactly the earliest failing check (connect, metadata lookup, instance type, member state); an unreachable entry, an entry missing from the metadata and a Read-Replica are reported as such whatever their member state |
| ReplicaChecks.FirstFault | modules/adminapi/cluster/add_replica_instance.cc:193-258 | reports no fault iff every entry passes; otherwise reports the first failing entry and its reason, and every earlier entry passed |
| ReplicaChecks.FaultError | modules/adminapi/cluster/add_replica_instance.cc:214-247 | the not-ONLINE diagnostic names the entry that failed (corrected; see Findings) |
| ReplicaChecks.NotOnlineDiagnosticNamesWrongSource | modules/adminapi/cluster/add_replica_instance.cc:185-247 | with an ONLINE first entry and an OFFLINE second entry, the code as written blames the first entry |
| ReplicaChecks.MainSource | modules/adminapi/cluster/add_replica_instance.cc:172-259 | for PRIMARY or SECONDARY the main source is the Cluster's primary; for a list, a successful choice is the list's first entry |
| ReplicaChecks.CustomFirstFailureWins | modules/adminapi/cluster/add_replica_instance.cc:193-258 | the error is that of the first failing entry, whatever the later entries are |
| ReplicaChecks.MainSourceIgnoresWeights | modules/adminapi/cluster/add_replica_instance.cc:183-258 | once the list order is fixed, changing the weights changes neither the verdict nor the chosen source |
| ReplicaChecks.FirstFaultIgnoresWeights | modules/adminapi/cluster/add_replica_instance.cc:193-258 | the per-entry checks read only the addresses |
| ReplicaAdmission.ChooseDonor | modules/adminapi/cluster/add_replica_instance.cc:368-383 | the donor is the explicit clone donor iff recovery is clone and a donor was given, and the main source otherwise; whichever donor is chosen passed the compatibility check |
| ReplicaAdmission.Validate | modules/adminapi/cluster/add_replica_instance.cc:318-387 | a validated plan has passed every stage: version, standalone, configuration, recovery options, SSL mode, auth type, source type, donor and recovery verdict |
| ReplicaAdmission.ValidationOrder | modules/adminapi/cluster/add_replica_instance.cc:318-387 | validation succeeds iff all nine stages pass; otherwise it fails with the first failing stage's error |
| ReplicaAdmission.DonorSelection | modules/adminapi/cluster/add_replica_instance.cc:368-383 | after validation, the donor is the clone donor only with clone recovery, and the main source otherwise |
| ReplicaAdmission.CanonicalSources | modules/adminapi/cluster/add_replica_instance.cc:508-531 | succeeds iff every entry resolves; entry i becomes its canonical address with its weight kept; a failure names the first entry that could not be reached |
| ReplicaAdmission.SourcesMetadata | modules/adminapi/cluster/add_replica_instance.cc:497-532 | PRIMARY and SECONDARY are stored as markers and leave the list as given; a custom list is stored as its canonical addresses |
| ReplicaAdmission.MetadataTransaction | modules/adminapi/cluster/add_replica_instance.cc:477-547 | commits iff every write and the commit succeed; it then holds exactly four writes, the last being the sources attribute |
| ReplicaAdmission.AddReplicaInstance | modules/adminapi/cluster/add_replica_instance.cc:296-612 | a validation failure leaves nothing registered, committed or configured; success implies a validated plan, an account and a channel |
| ReplicaAdmission.ActivateEffect | modules/adminapi/cluster/add_replica_instance.cc:561-598 | channel setup registers its removal behind everything else; a warning is issued iff the sync timed out, and never in a dry run |
| ReplicaAdmission.AfterProvisioningEffect | modules/adminapi/cluster/add_replica_instance.cc:474-598 | the metadata reversal is registered iff the transaction committed and is unwound first; the channel gets the list of the committed transaction (in a dry run, the list as given) |
| ReplicaAdmission.ProvisionEffect | modules/adminapi/cluster/add_replica_instance.cc:393-598 | the exact unwind actions after each outcome: nothing before the account exists; the account and then the half-cloned schema after a failed clone; otherwise the metadata, the account, then the channel |
| ReplicaAdmission.UnwindPlan | modules/adminapi/cluster/add_replica_instance.cc:393-598 | the same three cases for the whole operation; the clone cleanup never runs once cloning succeeded |
| ReplicaAdmission.DryRunWritesNothing | modules/adminapi/cluster/add_replica_instance.cc:477-584 | a dry run commits nothing, registers no metadata reversal and does not wait for sync; it validates exactly like a real run |
| ReplicaAdmission.CommittedMetadata | modules/adminapi/cluster/add_replica_instance.cc:477-555 | the committed writes are the Read-Replica row with its label, the join time, the account and the sources attribute; a metadata reversal is registered iff something was committed |
| ReplicaAdmission.ChannelSources | modules/adminapi/cluster/add_replica_instance.cc:508-565 | the channel keeps every weight; an address changes only in a real run with a custom list, and then to its canonical address |
| ReplicaAdmission.SyncTimeoutIsFatal | modules/adminapi/cluster/add_replica_instance.cc:575-598 | a sync timeout warns and fails the operation, with the metadata, the account and the channel all left for unwinding |
| ReplicaAdmission.RunCloneCleanup | modules/adminapi/cluster/add_replica_instance.cc:420-443 | super_read_only is re-enabled only if it was on and was disabled; the schema is dropped iff no earlier step failed; a failure is swallowed |
| CollectionFind.StepDiscipline | modules/devapi/mod_mysqlx_collection_find.cc:69-99 | a method the previous call did not enable is refused without effect; a successful call records its own mark; a refused call keeps the previous mark and, except for the lock methods, the whole request |
| CollectionFind.OnlyFindAtStart | modules/devapi/mod_mysqlx_collection_find.cc:69-99 | initially exactly `find` is available |
| CollectionFind.NarrowPredecessors | modules/devapi/mod_mysqlx_collection_find.cc:70-78 | `fields` is available only right after `find`, `having` only after `groupBy`, and `skip`/`offset` only after `limit` |
| CollectionFind.ExecuteAfterChaining | modules/devapi/mod_mysqlx_collection_find.cc:85-96 | `execute` is available after any call; after `bind` only `bind` and `execute` are |
| CollectionFind.LocksDoNotChain | modules/devapi/mod_mysqlx_collection_find.cc:79-84 | neither lock method may directly follow the other |
| CollectionFind.SkipOffsetShareSlot | modules/devapi/mod_mysqlx_collection_find.cc:809-896 | `skip(n)` and `offset(n)` write the same offset, record the same mark, and change nothing else |
| CollectionFind.BindRepeatable | modules/devapi/mod_mysqlx_collection_find.cc:1244-1255 | `bind` may be repeated, and a later binding of a name replaces the earlier one |
| CollectionFind.LockLastWins | modules/devapi/mod_mysqlx_collection_find.cc:900-925 | a lock call overwrites the lock kind even when its contention argument is refused; it fails iff the contention is refused |
| CollectionFind.ParseLockContention | modules/devapi/mod_mysqlx_collection_find.cc:900-922 | NOWAIT, SKIP_LOCKED and DEFAULT are recognised without regard to case, from a string or a `LockContention` constant, comparing only the text before an embedded NUL; any other value is an argument error |
| CollectionFind.EmbeddedTerminatorIgnored | modules/devapi/mod_mysqlx_collection_find.cc:912-917 | `"nowait"` followed by a NUL and more text still selects NOWAIT, since the comparison is on the C string |
| CollectionFind.UpperCaseAccepted | modules/devapi/mod_mysqlx_collection_find.cc:912-917 | the upper-case spelling `NOWAIT` selects NOWAIT |
| CollectionFind.ContentionIgnoresCase | modules/devapi/mod_mysqlx_collection_find.cc:912-917 | two spellings that fold to the same lower-case text parse alike |
| CollectionFind.ForeignConstantRefused | modules/devapi/mod_mysqlx_collection_find.cc:903-920 | a constant from another group stands for the empty text, which is refused |
| CollectionFind.StringList | modules/devapi/mod_mysqlx_collection_find.cc:356-357 | the list is defined iff the arguments are one array of strings (its items) or all strings (their texts, in order); it is empty only for no arguments or one empty array (the helper's shape is assumed; see Left out) |
| CollectionFind.ApplyFields | modules/devapi/mod_mysqlx_collection_find.cc:314-363 | the corrected call records `fields`; as written, the string form keeps the previous mark; a refused call changes nothing |
| CollectionFind.ApplyFind | modules/devapi/mod_mysqlx_collection_find.cc:178-200 | `find` records its mark or is refused without effect |
| CollectionFind.CountArg | modules/devapi/mod_mysqlx_collection_find.cc:731-740 | accepted iff there is exactly one non-negative integer argument, whose value is the result |
| CollectionFind.ApplyCriteria | modules/devapi/mod_mysqlx_collection_find.cc:433-452 | accepted iff there is an argument, the arguments form a string list and it is non-empty, and then the criteria are that list; otherwise the error says which of the three failed (no arguments, a wrong argument shape, an empty list) |
| CollectionFind.EmptyCriteria | modules/devapi/mod_mysqlx_collection_find.cc:634-652 | an empty criteria array is refused by `groupBy` and `sort` with their own errors and changes nothing; an empty `find` condition leaves the filter unset |
| CollectionFind.EmptyFieldsRefused | modules/devapi/mod_mysqlx_collection_find.cc:318-330 | an empty field array right after `find` is refused |
| CollectionFind.RankStep | modules/devapi/mod_mysqlx_collection_find.cc:69-99 | an enabled call never moves back along the chain, and only `bind` stays at the same position |
| CollectionFind.ChainRanks | modules/devapi/mod_mysqlx_collection_find.cc:69-99 | along a successful chain, every call except `bind` moves strictly forward |
| CollectionFind.ChainOrder | modules/devapi/mod_mysqlx_collection_find.cc:69-99 | in a successful chain no method except `bind` occurs twice, `skip` and `offset` never both occur, and neither do the two lock methods |
| CollectionFind.FieldsRepeatsAsWritten | modules/devapi/mod_mysqlx_collection_find.cc:355-363 | as written, `find().fields("a").fields("b")` is accepted and projects both fields; the corrected table refuses the second `fields` |
| JsCompletion.NextNewline | mysqlshdk/shellcore/provider_javascript.cc:273-274 | finds the first newline at or after a position, or reports that there is none |
| JsCompletion.ScanChar | mysqlshdk/shellcore/provider_javascript.cc:189-351 | a step on a character that opens no group moves forward; a valid return happens only at the expected closer; identifiers stay well formed; no method is added |
| JsCompletion.Scan | mysqlshdk/shellcore/provider_javascript.cc:180-359 | the scanner never moves back; a valid nested scan stops on its closer; the chain stays well formed; with the corrected end test, a method link needs a `)` in the scanned text |
| JsCompletion.ParseResultShape | mysqlshdk/shellcore/provider_javascript.cc:180-359 | every name in the returned chain is an identifier, and the chain does not start with a dot; a method link implies a `)` in the text |
| JsCompletion.WhitespaceClears | mysqlshdk/shellcore/provider_javascript.cc:261-267 | whitespace empties the chain and the pending identifier |
| JsCompletion.BadDotInvalidates | mysqlshdk/shellcore/provider_javascript.cc:306-318 | a dot at the start, after an empty chain, or after another dot invalidates the chain |
| JsCompletion.UnterminatedInvalidates | mysqlshdk/shellcore/provider_javascript.cc:190-205 | an unterminated string or block comment invalidates the chain |
| JsCompletion.IdentifierCharacters | mysqlshdk/shellcore/provider_javascript.cc:321-352 | a digit extends a pending identifier and otherwise clears the chain; `_` and letters extend the identifier; other characters clear everything |
| JsCompletion.Closers | mysqlshdk/shellcore/provider_javascript.cc:252-259 | the expected closer returns the chain without the pending identifier; any other closer clears both |
| JsCompletion.Groups | mysqlshdk/shellcore/provider_javascript.cc:208-250 | an unclosed or invalid group is the result; a closed group is skipped and then handled by its closer |
| JsCompletion.GroupEffect | mysqlshdk/shellcore/provider_javascript.cc:231-248 | after an identifier, `{...}` clears the chain, `(...)` adds a method and `[...]` a variable |
| JsCompletion.UnclosedCommentCounterexample | mysqlshdk/shellcore/provider_javascript.cc:227 | for `f(//` the code as written reports a method `f` though no `)` was typed; the corrected end test returns the empty chain |
| JsCompletion.MatchingMembers | mysqlshdk/shellcore/provider_javascript.cc:141-145 | lists exactly the members whose name starts with the prefix, with `()` appended for callables, and never more entries than members |
| JsCompletion.MatchingMembersAppend | mysqlshdk/shellcore/provider_javascript.cc:110-115 | filtering is member by member in order: the matches of a concatenation are the matches of each part, one after the other, and one member gives its rendered name iff it matches |
| JsCompletion.MatchingWords | mysqlshdk/shellcore/provider_javascript.cc:146-150 | lists exactly the keywords that start with the prefix, and never more entries than keywords |
| JsCompletion.MatchingWordsAppend | mysqlshdk/shellcore/provider_javascript.cc:146-150 | the same order and multiplicity laws for keywords |
| JsCompletion.AddCompletions | mysqlshdk/shellcore/provider_javascript.cc:104-117 | keeps the existing list, appends the matching members in member order and returns how many it appended |
| JsCompletion.AddCompletionsInBatches | mysqlshdk/shellcore/provider_javascript.cc:104-117 | adding the members in two batches gives the same list and the same count as adding them at once |
| JsCompletion.CompleteChain | mysqlshdk/shellcore/provider_javascript.cc:134-156 | a chain of size one gets the matching globals (rendered as object members are), then the matching keywords, then the generic candidates; any other chain gets only the generic candidates |
| JsCompletion.KeywordsOnlyAtTopLevel | mysqlshdk/shellcore/provider_javascript.cc:134-156 | a matching keyword is offered iff the chain has size one |
| PythonBridge.CopyPyChar | mysqlshdk/scripting/python_context.cc:62-73 | fails iff the converted text does not fit with its terminator; otherwise writes the text and the terminator at the front of the buffer and leaves the rest |
| PythonBridge.CopyRoundTrip | mysqlshdk/scripting/python_context.cc:62-73 | reading the copied buffer back as a C string gives the text again |
| PythonBridge.RawExecute | mysqlshdk/scripting/python_context.cc:549-594 | runs the statements in order and stops at the first failure, whose error is printed; succeeds iff every statement succeeds; the caller's error string is never written |
| PythonBridge.ClassifyMessage | mysqlshdk/scripting/python_context.cc:825-844 | the message check throws exactly for a short message that none of the earlier comparisons matched |
| PythonBridge.ExecuteInteractive | mysqlshdk/scripting/python_context.cc:741-866 | a raised error is printed iff no continuation state was chosen; flushing always reports the error; termination needs a short syntax message |
| PythonBridge.ContinuationRules | mysqlshdk/scripting/python_context.cc:805-857 | the single-statement and block continuation states are chosen exactly for their messages, only without flushing, or for successful code ending in a backslash and a newline |
| PythonBridge.ShortMessageTerminates | mysqlshdk/scripting/python_context.cc:805-857 | the process ends iff, without flushing, a syntax error carries a message shorter than four characters |
| PythonBridge.SetShellError | mysqlshdk/scripting/python_context.cc:997-1008 | codes below 50000 raise the database error class, the others raise the shell error class, with the code and the text as arguments; the text is the C string of the message, cut at its first NUL |
| PythonBridge.SetPythonError | mysqlshdk/scripting/python_context.cc:949-995 | a positive code takes the shell-error route; otherwise the family's class is raised, with the error text located at the error's own location or else the caller's |
| PythonBridge.PythonClass | mysqlshdk/scripting/python_context.cc:967-975 | argument and type errors map to ValueError and TypeError only when both a type and a message are present; everything else is RuntimeError |
| PythonBridge.PythonErrorText | mysqlshdk/scripting/python_context.cc:963-994 | the raised text ends with the message, the location and a newline; without a message it is just the location prefix |
| PythonBridge.CodeAndMessage | mysqlshdk/scripting/python_context.cc:1704-1744 | the code and message are read iff the arguments are a pair whose first item is None (code 0) or a C int, and whose second item is a string without an embedded NUL; the message read back is that string |
| PythonBridge.ThrowIfMysqlshError | mysqlshdk/scripting/python_context.cc:1747-1768 | the database class becomes a MySQL error with its code; the shell class becomes a runtime error for a code up to 0 and a coded exception otherwise; other classes stay pending |
| PythonBridge.ShellErrorRoundTrip | mysqlshdk/scripting/python_context.cc:997-1008 | a shell error sent into Python and read back keeps its code and the C string of its message, which is the whole message when it holds no NUL |
| PythonBridge.CodedExceptionRoundTrip | mysqlshdk/scripting/python_context.cc:958-961 | a shell exception with a positive code survives the trip into Python and back, its message cut at its first NUL |
| PythonBridge.ReadLine | mysqlshdk/scripting/python_context.cc:1121-1141 | with a newline in the buffer, returns up to and including it and keeps the rest; otherwise a non-Ok prompt cancels with an empty line, and an answer is returned after the buffer with a newline, emptying the buffer |
| PythonBridge.ReadLineConserves | mysqlshdk/scripting/python_context.cc:1121-1141 | the line read followed by the buffer left equals the old buffer followed by what was typed; every line read ends with a newline |
| PythonBridge.RawInput | mysqlshdk/scripting/python_context.cc:1099-1119 | a cancelled prompt raises a keyboard interrupt; otherwise exactly one trailing character is dropped |
| PythonBridge.RawInputStripsNewline | mysqlshdk/scripting/python_context.cc:1117 | the dropped character is the line's newline |
| PythonBridge.GatherLine | mysqlshdk/scripting/python_context.cc:1184-1199 | one turn of the read loop: cancelled iff the buffer holds no newline and the prompt is not answered, leaving everything as it was; otherwise one whole line is gathered and no input is lost; the prompt is used only when the buffer holds no newline, and then empties it |
| PythonBridge.StdinRead | mysqlshdk/scripting/python_context.cc:1173-1210 | returns exactly n characters, and those characters followed by the new buffer equal the old buffer followed by what was typed; input is gathered in whole lines, and the last line read started before n characters were gathered and holds no newline before its end (or, if prompted, before the typed answer); once prompted, all input was gathered; a cancelled prompt interrupts, and then every earlier prompt was answered, fewer than n characters had been gathered in whole lines, and the buffer left is exactly the rest of the input |
| PythonBridge.FinishRead | mysqlshdk/scripting/python_context.cc:1200-1207 | the first n gathered characters are returned and the rest is put back in front of the buffer, so the returned text followed by the new buffer is the old buffer followed by what was typed |
| PythonBridge.EmbeddedTerminatorStaysPending | mysqlshdk/scripting/python_context.cc:1716-1731 | an exception whose message holds a NUL is not read as a coded error: the `s` format refuses it and the Python error stays pending |

## Left out

- Remote work in Read-Replica admission is not modelled: connections, SQL,
  clone monitoring, the channel commands, `sync_transactions` and the version,
  configuration, recovery-option and recovery checks. Their answers are inputs
  (`Cluster`, `Effects`).
- The undo tracker's own implementation (`undo.h`) is not part of this model.
  The ledger models only how `add`, `add_back` and `cancel` are used, and the
  order in which unwinding runs the entries. `Sql_undo_list` is a single
  `RevertMetadata` action. The order inside a group (newest first) is assumed,
  since `undo.h` is not part of this model; in this flow it cannot be
  observed in the deferred group, because the clone cleanup is always cancelled
  or already failed before the channel entry exists.
- Console output and logging are not modelled, with two exceptions: the
  sync-timeout warning, because the operation's outcome depends on it, and the
  address the source-list diagnostics print (carried by `SourceUnreachable`,
  `SourceNotInMetadata`, `SourceIsReadReplica` and `SourceNotOnline`), because
  the not-ONLINE diagnostic prints the wrong one (see Findings).
- ReplicaChecks.MainSource: requires a non-empty custom list, because the code
  dereferences the list's first element without a check.
- ReplicaChecks.MainSource: takes the list in the order the weighted set
  iterates it. That order (by weight) is not modelled.
- ReplicaAdmission.CanonicalSources: the code updates a copy of an ordered set
  (erase, then insert). The model rewrites the sequence in place. The two agree
  when canonical addresses do not collide.
- ReplicaAdmission.Validate: an `AUTO` SSL mode is accepted. The check for it
  is a debug-only assertion, so a release build falls through and accepts.
- The sync timeout is fatal in the code: it prints the warning and rethrows.
  The model follows the code.
- CollectionFind.StringList: the `parse_string_list` helper is not part of this
  model. Its accepted shapes are assumed: one array of strings, or any number of
  string arguments. A mix of strings and arrays is modelled as an argument error.
- CollectionFind.ApplyCriteria: rests on the assumed shapes of
  CollectionFind.StringList; the model does not promise what the helper does
  with other argument shapes.
- CollectionFind.BindRepeatable: `bind_value` is not part of this model. The
  error it raises for a placeholder that no parsed expression declared (the
  documented behaviour of `bind`) is not modelled, because the placeholders come
  from the expression parser, which is not modelled either; any name is bound.
  That a later binding of a name replaces the earlier one is assumed.
- CollectionFind.CountArg: `uint_at` is not part of this model. A non-negative
  integer is assumed to be the only accepted argument, and its 64-bit upper
  bound is not modelled.
- CollectionFind: the expression parser is not modelled. A criterion is kept as
  its text, and parse errors are not modelled.
- CollectionFind: the dispatcher refuses a hidden method before the call is
  made. The model represents that refusal as a `Hidden` error.
- CollectionFind: the method documentation says `lockExclusive` may follow
  `lockShared`. The registered table forbids it, and the model follows the table.
- CollectionFind: `execute` sends the request over the session and is not
  modelled. Only whether it is enabled is modelled.
- JsCompletion: the `Chain` class and the span helpers for strings and comments
  are not part of this model. The chain is a list of links. The spans are
  parameters that only have to move forward.
- JsCompletion.Scan: when a string is unterminated, the code sets the position
  to `npos` before returning an invalid chain. The model returns the current
  position instead; no caller uses the position of an invalid chain.
- JsCompletion.Scan: positions count characters. The code scans the bytes of a
  UTF-8 string, so its positions are byte offsets; the two differ once non-ASCII
  text comes before the position.
- JsCompletion: the member lookup through the JavaScript engine
  (`get_members_of`, `list_globals`) is an input list. The generic part of
  `complete_chain` is an input list too.
- JsCompletion.AddVariable and JsCompletion.AddMethod: an empty name adds
  nothing and reports `false`. This is assumed from how the callers use the
  return value, since the `Chain` class is not part of this model.
- PythonBridge: the interpreter is not modelled: CPython objects, reference
  counting, the GIL, signal handling, module registration, the
  display-hook capture and the AST slicing in `py_run_string_interactive`.
  Interpreter answers are parameters.
- PythonBridge.CopyPyChar: UTF-8 to wide-character conversion is not modelled.
  The model starts from the converted text.
- PythonBridge.StdinRead: `n` is a natural number. The code reads it with an
  unchecked unsigned format into a signed `int`, and that wrap-around is not
  modelled.
- PythonBridge.SetShellError: the text of a shell exception is taken to be its
  message.
- PythonBridge.SetPythonError: the raised text is passed as a C string, so the
  code cuts it at its first NUL. The model keeps the whole text.
- PythonBridge.StdinRead: lengths count characters. The code counts the bytes of
  the UTF-8 line buffer, so `n` and the split point are byte counts, and a split
  may fall inside a multi-byte character. The returned object is built from a C
  string, so the code also cuts the returned text at its first NUL; the model
  returns all n characters.
- `sys.stdin.readline` and the rest of the stdio shims are not modelled.

## Findings

| source | as written | input that shows it | evidently intended | confidence | as-written member | corrected member |
|---|---|---|---|---|---|---|
| mysqlshdk/shellcore/provider_javascript.cc:227 | a nested group counts as unclosed only when the scan stopped exactly at the end of the text | `f(//`: the `//` with no newline moves the position one past the end, so the group counts as closed and a method `f` is reported | a scan that stopped at or past the end leaves the group unclosed, and the result is the inner empty chain | not executed | JsCompletion.UnclosedCommentCounterexample | JsCompletion.Scan |
| modules/adminapi/cluster/add_replica_instance.cc:241-245 | the not-ONLINE diagnostic prints the list's first entry (`source_str`) | sources `a:3306` (ONLINE) then `b:3306` (OFFLINE): the message blames `a:3306` | the message names the entry that is not ONLINE, as the other two diagnostics do | not executed | ReplicaChecks.NotOnlineDiagnosticNamesWrongSource | ReplicaChecks.FaultError |
| modules/devapi/mod_mysqlx_collection_find.cc:355-363 | `fields` with string arguments does not record its call | `find().fields("a").fields("b")` is accepted and projects both | every successful `fields` records its call, as the array and expression forms do, so `fields` cannot be repeated | not executed | CollectionFind.FieldsRepeatsAsWritten | CollectionFind.ChainOrder |

=== FILE: collection_find.dfy ===
/** `CollectionFind`, the X DevAPI find-operation builder: a chaining state machine
    over the method names, and the query record each chaining call fills in. The
    expression parser is left abstract: a criterion is kept as the text it was given. */
module CollectionFind {
  import opened Common

  /** The methods the dispatcher enables or hides. */
  datatype Method =
    | FindM | FieldsM | GroupByM | HavingM | SortM | LimitM | SkipM | OffsetM
    | LockSharedM | LockExclusiveM | BindM | ExecuteM | ShellHookM

  /** The last call recorded with `update_functions`; `Start` is the initial mark.
      `offset` records `Skip`, so `OffsetMark` is never recorded but still appears in
      the predecessor sets. */
  datatype Mark =
    | Start | FindMark | FieldsMark | GroupByMark | HavingMark | SortMark | LimitMark
    | SkipMark | OffsetMark | LockSharedMark | LockExclusiveMark | BindMark

  /** The registered predecessor set of each method. */
  function Predecessors(m: Method): set<Mark>
  {
    match m
    case FindM => {Start}
    case FieldsM => {FindMark}
    case GroupByM => {FindMark, FieldsMark}
    case HavingM => {GroupByMark}
    case SortM => {FindMark, FieldsMark, GroupByMark, HavingMark}
    case LimitM => {FindMark, FieldsMark, GroupByMark, HavingMark, SortMark}
    case SkipM => {LimitMark}
    case OffsetM => {LimitMark}
    case LockSharedM => {FindMark, FieldsMark, GroupByMark, HavingMark, SortMark, SkipMark, OffsetMark, LimitMark}
    case LockExclusiveM => {FindMark, FieldsMark, GroupByMark, HavingMark, SortMark, SkipMark, OffsetMark, LimitMark}
    case BindM => {FindMark, FieldsMark, GroupByMark, HavingMark, SortMark, SkipMark, OffsetMark, LimitMark,
                   LockSharedMark, LockExclusiveMark, BindMark}
    case ExecuteM => {FindMark, FieldsMark, GroupByMark, HavingMark, SortMark, SkipMark, LimitMark, OffsetMark,
                      LockSharedMark, LockExclusiveMark, BindMark}
    case ShellHookM => {FindMark, FieldsMark, GroupByMark, HavingMark, SortMark, SkipMark, LimitMark, OffsetMark,
                        LockSharedMark, LockExclusiveMark, BindMark}
  }

  predicate Enabled(m: Method, last: Mark)
  {
    last in Predecessors(m)
  }

  // ---------------------------------------------------------------------------
  // Arguments and the query record

  /** A script value passed to a chaining method. `ExprArg` is an `Expression` object
      whose parsed form is a JSON document exactly when `isDocument`; `ConstArg` is a
      constant object of the given group. */
  datatype Arg =
    | StrArg(text: string)
    | ListArg(items: seq<string>)
    | IntArg(n: int)
    | ExprArg(isDocument: bool, data: string)
    | ConstArg(group: string, data: string)
    | OtherArg

  datatype Projection = Column(text: string) | Document(data: string)

  datatype Locking = NoLock | SharedLock | ExclusiveLock

  datatype Contention = NoWait | SkipLocked

  datatype Query = Query(
    filter: Option<string>,
    projection: seq<Projection>,
    grouping: seq<string>,
    groupingCriteria: Option<string>,
    order: seq<string>,
    rowCount: Option<nat>,
    offset: Option<nat>,
    locking: Locking,
    lockOptions: Option<Contention>,
    bindings: map<string, Arg>)

  datatype FindState = FindState(last: Mark, query: Query)

  function Initial(): (st: FindState)
    ensures st.last == Start && st.query.filter.None? && st.query.projection == []
  {
    FindState(Start, Query(None, [], [], None, [], None, None, NoLock, None, map[]))
  }

  datatype FindError =
    | Hidden(m: Method)          // the method is not enabled after the last call
    | ArgCount
    | ArgType
    | EmptyFields                // "Field selection criteria can not be empty"
    | NotJsonDocument            // "Argument #1 is expected to be a JSON expression"
    | EmptyGrouping              // "Grouping criteria can not be empty"
    | EmptySort                  // "Sort criteria can not be empty"
    | BadLockContention          // "... one of DEFAULT, NOWAIT or SKIP_LOCKED"

  datatype Call =
    | Find(args: seq<Arg>)
    | Fields(args: seq<Arg>)
    | GroupBy(args: seq<Arg>)
    | Having(args: seq<Arg>)
    | Sort(args: seq<Arg>)
    | Limit(args: seq<Arg>)
    | Skip(args: seq<Arg>)
    | Offset(args: seq<Arg>)
    | LockShared(args: seq<Arg>)
    | LockExclusive(args: seq<Arg>)
    | Bind(args: seq<Arg>)

  function MethodOf(c: Call): Method
  {
    match c
    case Find(_) => FindM
    case Fields(_) => FieldsM
    case GroupBy(_) => GroupByM
    case Having(_) => HavingM
    case Sort(_) => SortM
    case Limit(_) => LimitM
    case Skip(_) => SkipM
    case Offset(_) => OffsetM
    case LockShared(_) => LockSharedM
    case LockExclusive(_) => LockExclusiveM
    case Bind(_) => BindM
  }

  /** The mark a successful call records. */
  function MarkOf(c: Call): Mark
  {
    match c
    case Find(_) => FindMark
    case Fields(_) => FieldsMark
    case GroupBy(_) => GroupByMark
    case Having(_) => HavingMark
    case Sort(_) => SortMark
    case Limit(_) => LimitMark
    case Skip(_) => SkipMark
    case Offset(_) => SkipMark
    case LockShared(_) => LockSharedMark
    case LockExclusive(_) => LockExclusiveMark
    case Bind(_) => BindMark
  }

  // ---------------------------------------------------------------------------
  // Argument helpers

  /** The texts of arguments that are all strings, in order; `None` when some
      argument is not a string. */
  function StringArgs(args: seq<Arg>): (r: Option<seq<string>>)
    ensures r.Some? <==> forall i :: 0 <= i < |args| ==> args[i].StrArg?
    ensures r.Some? ==> |r.value| == |args| && forall i :: 0 <= i < |args| ==> r.value[i] == args[i].text
  {
    if args == [] then Some([])
    else if !args[0].StrArg? then None
    else match StringArgs(args[1..])
      case None => None
      case Some(rest) => Some([args[0].text] + rest)
  }

  /** A string list given as one array of strings, or as string arguments; `None`
      for any other shape. */
  function StringList(args: seq<Arg>): (r: Option<seq<string>>)
    ensures r.Some? <==> (|args| == 1 && args[0].ListArg?) || forall i :: 0 <= i < |args| ==> args[i].StrArg?
    ensures |args| == 1 && args[0].ListArg? ==> r == Some(args[0].items)
    ensures r.Some? && !(|args| == 1 && args[0].ListArg?) ==>
      |r.value| == |args| && forall i :: 0 <= i < |args| ==> r.value[i] == args[i].text
    ensures r == Some([]) <==> args == [] || args == [ListArg([])]
  {
    if |args| == 1 && args[0].ListArg? then Some(args[0].items) else StringArgs(args)
  }

  function Columns(items: seq<string>): (r: seq<Projection>)
    ensures |r| == |items| && forall i :: 0 <= i < |items| ==> r[i] == Column(items[i])
  {
    if items == [] then [] else [Column(items[0])] + Columns(items[1..])
  }

  /** An unsigned integer argument. */
  function Count(a: Arg): (r: Option<nat>)
    ensures r.Some? <==> a.IntArg? && a.n >= 0
  {
    if a.IntArg? && a.n >= 0 then Some(a.n) else None
  }

  // ---------------------------------------------------------------------------
  // Lock contention

  function LowerAscii(c: char): char
  {
    if 'A' <= c <= 'Z' then (c as int + 32) as char else c
  }

  /** The ASCII lower-case fold of a string. */
  function Fold(s: string): (r: string)
    ensures |r| == |s| && forall i :: 0 <= i < |s| ==> r[i] == LowerAscii(s[i])
  {
    if s == [] then [] else [LowerAscii(s[0])] + Fold(s[1..])
  }

  predicate EqualsIgnoreCase(a: string, b: string)
  {
    Fold(a) == Fold(b)
  }

  /** The text a lock-contention argument stands for: a string, or the data of a
      `LockContention` constant; anything else stands for the empty text. */
  function ContentionText(a: Arg): string
  {
    match a
    case StrArg(s) => s
    case ConstArg(g, d) => if g == "LockContention" then d else ""
    case _ => ""
  }

  /** `Keep` leaves the lock options as they are. */
  datatype ContentionChoice = Keep | Use(c: Contention)

  /** The text is compared as a C string, so only what comes before an embedded
      terminator matters. */
  function ParseLockContention(args: seq<Arg>): (r: Result<ContentionChoice, FindError>)
    requires |args| <= 1
    ensures |args| == 0 ==> r == Ok(Keep)
    ensures |args| == 1 ==>
      && (r == Ok(Use(NoWait)) <==> EqualsIgnoreCase(CString(ContentionText(args[0])), "nowait"))
      && (r == Ok(Use(SkipLocked)) <==> EqualsIgnoreCase(CString(ContentionText(args[0])), "skip_locked"))
      && (r == Ok(Keep) <==> EqualsIgnoreCase(CString(ContentionText(args[0])), "default"))
      && (r.Err? ==> r.error == BadLockContention)
  {
    if |args| == 0 then Ok(Keep)
    else
      var text := CString(ContentionText(args[0]));
      if EqualsIgnoreCase(text, "nowait") then Ok(Use(NoWait))
      else if EqualsIgnoreCase(text, "skip_locked") then
        assert |Fold(text)| == 11;
        Ok(Use(SkipLocked))
      else if EqualsIgnoreCase(text, "default") then
        assert |Fold(text)| == 7;
        Ok(Keep)
      else Err(BadLockContention)
  }

  /** Case does not matter: two spellings that fold to the same text parse alike. */
  lemma ContentionIgnoresCase(s: string, t: string)
    requires Fold(s) == Fold(t)
    ensures ParseLockContention([StrArg(s)]) == ParseLockContention([StrArg(t)])
  {
    FoldCString(s, t);
  }

  /** Folding keeps the terminator and maps nothing else onto it, so texts that
      fold alike hold C strings that fold alike. */
  lemma {:induction false} FoldCString(s: string, t: string)
    requires Fold(s) == Fold(t)
    ensures Fold(CString(s)) == Fold(CString(t))
    decreases |s|
  {
    if s != [] {
      assert LowerAscii(s[0]) == Fold(s)[0] == Fold(t)[0] == LowerAscii(t[0]);
      assert Fold(s[1..]) == Fold(s)[1..] == Fold(t)[1..] == Fold(t[1..]);
      FoldCString(s[1..], t[1..]);
    }
  }

  /** Only the text before an embedded terminator is compared. */
  lemma EmbeddedTerminatorIgnored()
    ensures ParseLockContention([StrArg("nowait\0x")]) == Ok(Use(NoWait))
  {
    var s := "nowait\0x";
    assert s == "nowait" + "\0x";
    CStringWhole("nowait");
    assert CString(s)[..6] == s[..6] == "nowait";
    assert s[6] == Terminator;
    assert CString(s) == "nowait";
  }

  /** An upper-case spelling is accepted. */
  lemma UpperCaseAccepted()
    ensures ParseLockContention([StrArg("NOWAIT")]) == Ok(Use(NoWait))
  {
    CStringWhole("NOWAIT");
    var f := Fold("NOWAIT");
    assert f[0] == 'n' && f[1] == 'o' && f[2] == 'w' && f[3] == 'a' && f[4] == 'i' && f[5] == 't';
    var g := Fold("nowait");
    assert g[0] == 'n' && g[1] == 'o' && g[2] == 'w' && g[3] == 'a' && g[4] == 'i' && g[5] == 't';
    assert f == g;
  }

  /** An object that is not a `LockContention` constant stands for the empty text,
      which is refused. */
  lemma ForeignConstantRefused(group: string, data: string)
    requires group != "LockContention"
    ensures ParseLockContention([ConstArg(group, data)]) == Err(BadLockContention)
  {
    assert |Fold("")| == 0;
  }

  // ---------------------------------------------------------------------------
  // The chaining calls

  /** Whether `fields` with string arguments records its call (`Corrected`) or leaves
      the last mark as it was (`AsWritten`). */
  datatype Variant = AsWritten | Corrected

  /** The result of a call: the new state and the error raised, if any. A call that
      raises keeps the last mark; only the lock methods change the query before
      raising. */
  datatype Step = Step(state: FindState, error: Option<FindError>)

  function Done(q: Query, last: Mark): Step
  {
    Step(FindState(last, q), None)
  }

  function Raise(st: FindState, e: FindError): Step
  {
    Step(st, Some(e))
  }

  function ApplyFields(v: Variant, st: FindState, args: seq<Arg>): (r: Step)
    ensures r.error.None? && v == Corrected ==> r.state.last == FieldsMark
    ensures r.error.None? && v == AsWritten ==> r.state.last in {st.last, FieldsMark}
    ensures r.error.Some? ==> r.state == st
  {
    var q := st.query;
    if |args| == 0 then Raise(st, ArgCount)
    else if |args| == 1 && !args[0].StrArg? then
      match args[0]
      case ListArg(items) =>
        var p := q.projection + Columns(items);
        if |p| == 0 then Raise(st, EmptyFields) else Done(q.(projection := p), FieldsMark)
      case ExprArg(isDocument, data) =>
        if isDocument then Done(q.(projection := q.projection + [Document(data)]), FieldsMark)
        else Raise(st, NotJsonDocument)
      case _ => Raise(st, ArgType)
    else
      match StringList(args)
      case None => Raise(st, ArgType)
      case Some(items) =>
        Done(q.(projection := q.projection + Columns(items)), if v == AsWritten then st.last else FieldsMark)
  }

  function ApplyLock(st: FindState, kind: Locking, last: Mark, args: seq<Arg>): (r: Step)
    ensures |args| <= 1 ==> r.state.query.locking == kind
    ensures r.error.None? ==> r.state.last == last
    ensures r.error.Some? ==> r.state.last == st.last
    ensures |args| <= 1 ==> (r.error.Some? <==> ParseLockContention(args).Err?)
    ensures |args| <= 1 && ParseLockContention(args) == Ok(Keep) ==> r.state.query.lockOptions == st.query.lockOptions
  {
    if |args| > 1 then Raise(st, ArgCount)
    else
      var q := st.query.(locking := kind);
      match ParseLockContention(args)
      case Err(e) => Step(FindState(st.last, q), Some(e))
      case Ok(Keep) => Done(q, last)
      case Ok(Use(c)) => Done(q.(lockOptions := Some(c)), last)
  }

  function ApplyFind(st: FindState, args: seq<Arg>): (r: Step)
    ensures r.error.None? ==> r.state.last == FindMark
    ensures r.error.Some? ==> r.state == st
  {
    var q := st.query;
    if |args| > 1 then Raise(st, ArgCount)
    else if |args| == 0 then Done(q, FindMark)
    else if !args[0].StrArg? then Raise(st, ArgType)
    else Done(if args[0].text == "" then q else q.(filter := Some(args[0].text)), FindMark)
  }

  /** The criteria of `groupBy` and `sort`: a non-empty list of strings, or the error `empty` when the list is empty. */
  function ApplyCriteria(args: seq<Arg>, empty: FindError): (r: Result<seq<string>, FindError>)
    requires empty != ArgCount && empty != ArgType
    ensures r.Ok? <==> |args| > 0 && StringList(args).Some? && StringList(args).value != []
    ensures r.Ok? ==> StringList(args) == Some(r.value)
    ensures r == Err(ArgCount) <==> |args| == 0
    ensures r == Err(ArgType) <==> |args| > 0 && StringList(args).None?
    ensures r == Err(empty) <==> args == [ListArg([])]
  {
    if |args| == 0 then Err(ArgCount)
    else match StringList(args)
      case None => Err(ArgType)
      case Some(items) => if items == [] then Err(empty) else Ok(items)
  }

  /** `limit`, `skip` and `offset`: one unsigned integer. */
  function CountArg(args: seq<Arg>): (r: Result<nat, FindError>)
    ensures r.Ok? <==> |args| == 1 && args[0].IntArg? && args[0].n >= 0
    ensures r.Ok? ==> r.value == args[0].n
  {
    if |args| != 1 then Err(ArgCount)
    else match Count(args[0])
      case None => Err(ArgType)
      case Some(n) => Ok(n)
  }

  function ApplyBind(st: FindState, args: seq<Arg>): (r: Step)
    ensures r.error.None? ==> r.state.last == BindMark
    ensures r.error.Some? ==> r.state == st
  {
    if |args| != 2 then Raise(st, ArgCount)
    else if !args[0].StrArg? then Raise(st, ArgType)
    else Done(st.query.(bindings := st.query.bindings[args[0].text := args[1]]), BindMark)
  }

  /** One chaining call, once the dispatcher found it enabled. */
  function ApplyEnabled(v: Variant, st: FindState, c: Call): Step
  {
    var q := st.query;
    match c
    case Find(args) => ApplyFind(st, args)
    case Fields(args) => ApplyFields(v, st, args)
    case GroupBy(args) =>
      (match ApplyCriteria(args, EmptyGrouping)
       case Err(e) => Raise(st, e)
       case Ok(items) => Done(q.(grouping := q.grouping + items), GroupByMark))
    case Having(args) =>
      if |args| != 1 then Raise(st, ArgCount)
      else if !args[0].StrArg? then Raise(st, ArgType)
      else Done(q.(groupingCriteria := Some(args[0].text)), HavingMark)
    case Sort(args) =>
      (match ApplyCriteria(args, EmptySort)
       case Err(e) => Raise(st, e)
       case Ok(items) => Done(q.(order := q.order + items), SortMark))
    case Limit(args) =>
      (match CountArg(args)
       case Err(e) => Raise(st, e)
       case Ok(n) => Done(q.(rowCount := Some(n)), LimitMark))
    case Skip(args) =>
      (match CountArg(args)
       case Err(e) => Raise(st, e)
       case Ok(n) => Done(q.(offset := Some(n)), SkipMark))
    case Offset(args) =>
      (match CountArg(args)
       case Err(e) => Raise(st, e)
       case Ok(n) => Done(q.(offset := Some(n)), SkipMark))
    case LockShared(args) => ApplyLock(st, SharedLock, LockSharedMark, args)
    case LockExclusive(args) => ApplyLock(st, ExclusiveLock, LockExclusiveMark, args)
    case Bind(args) => ApplyBind(st, args)
  }

  /** One chaining call: a method the last call did not enable is refused. */
  function ApplyWith(v: Variant, st: FindState, c: Call): Step
  {
    if !Enabled(MethodOf(c), st.last) then Raise(st, Hidden(MethodOf(c)))
    else ApplyEnabled(v, st, c)
  }

  function Apply(st: FindState, c: Call): Step
  {
    ApplyWith(Corrected, st, c)
  }

  /** Runs a chain of calls, stopping at the first error. */
  function RunWith(v: Variant, st: FindState, calls: seq<Call>): Result<FindState, FindError>
    decreases |calls|
  {
    if calls == [] then Ok(st)
    else
      var s := ApplyWith(v, st, calls[0]);
      if s.error.Some? then Err(s.error.value) else RunWith(v, s.state, calls[1..])
  }

  /** Step discipline: a hidden method is refused without effect; a successful call
      records its own mark; a refused call keeps the last mark, and only the lock
      methods change the query before refusing. */
  lemma StepDiscipline(v: Variant, st: FindState, c: Call)
    ensures var r := ApplyWith(v, st, c);
      && (!Enabled(MethodOf(c), st.last) ==> r == Raise(st, Hidden(MethodOf(c))))
      && (r.error.None? ==> Enabled(MethodOf(c), st.last))
      && (r.error.None? && (v == Corrected || !c.Fields?) ==> r.state.last == MarkOf(c))
      && (r.error.Some? ==> r.state.last == st.last)
      && (r.error.Some? && !c.LockShared? && !c.LockExclusive? ==> r.state == st)
  {
  }

  // ---------------------------------------------------------------------------
  // Properties of the table

  /** Initially only `find` is available; in particular nothing can be executed. */
  lemma OnlyFindAtStart()
    ensures forall m :: Enabled(m, Start) <==> m == FindM
  {
  }

  /** `fields` only right after `find`, `having` only right after `groupBy`, `skip`
      and `offset` only right after `limit`. */
  lemma NarrowPredecessors(last: Mark)
    ensures Enabled(FieldsM, last) <==> last == FindMark
    ensures Enabled(HavingM, last) <==> last == GroupByMark
    ensures Enabled(SkipM, last) <==> last == LimitMark
    ensures Enabled(OffsetM, last) <==> last == LimitMark
  {
  }

  /** After any chaining call `execute` is available; after `bind` only `bind` and
      `execute` are. */
  lemma ExecuteAfterChaining(last: Mark)
    ensures Enabled(ExecuteM, last) <==> last != Start
    ensures Enabled(ShellHookM, last) <==> last != Start
    ensures forall m :: Enabled(m, BindMark) <==> m in {BindM, ExecuteM, ShellHookM}
  {
  }

  /** Per the table, `lockExclusive` cannot directly follow `lockShared` (nor the
      reverse), although the method documentation says it may override it. */
  lemma LocksDoNotChain()
    ensures !Enabled(LockExclusiveM, LockSharedMark) && !Enabled(LockSharedM, LockExclusiveMark)
  {
  }

  // ---------------------------------------------------------------------------
  // Properties of the calls

  /** `skip` and `offset` write the same slot and record the same mark, after which
      neither is available again. Nothing else in the query changes. */
  lemma SkipOffsetShareSlot(st: FindState, n: nat, useOffset: bool)
    requires st.last == LimitMark
    ensures var r := Apply(st, if useOffset then Offset([IntArg(n)]) else Skip([IntArg(n)]));
      && r.error.None?
      && r.state.query == st.query.(offset := Some(n))
      && r.state.last == SkipMark
      && !Enabled(SkipM, r.state.last) && !Enabled(OffsetM, r.state.last)
  {
  }

  /** `bind` may be repeated, and a later binding of a name replaces the earlier one. */
  lemma BindRepeatable(st: FindState, name: string, a: Arg, b: Arg)
    requires Enabled(BindM, st.last)
    ensures var r1 := Apply(st, Bind([StrArg(name), a]));
      var r2 := Apply(r1.state, Bind([StrArg(name), b]));
      && r1.error.None? && r2.error.None?
      && r2.state.query.bindings[name] == b
      && Enabled(ExecuteM, r2.state.last)
  {
  }

  /** The lock methods overwrite the single locking field whatever it held before,
      even when the contention argument is then refused. */
  lemma LockLastWins(st: FindState, c: Call)
    requires c.LockShared? || c.LockExclusive?
    requires |c.args| <= 1 && Enabled(MethodOf(c), st.last)
    ensures var r := Apply(st, c);
      && r.state.query.locking == (if c.LockExclusive? then ExclusiveLock else SharedLock)
      && (r.error.Some? <==> ParseLockContention(c.args).Err?)
      && (ParseLockContention(c.args) == Ok(Keep) ==> r.state.query.lockOptions == st.query.lockOptions)
  {
    assert Apply(st, c) == ApplyEnabled(Corrected, st, c);
  }

  /** Empty grouping or sort criteria are refused and change nothing; an empty
      `find` condition leaves the filter unset. */
  lemma EmptyCriteria(st: FindState, args: seq<Arg>)
    requires args == [ListArg([])]
    ensures Enabled(GroupByM, st.last) ==> Apply(st, GroupBy(args)) == Raise(st, EmptyGrouping)
    ensures Enabled(SortM, st.last) ==> Apply(st, Sort(args)) == Raise(st, EmptySort)
    ensures Apply(Initial(), Find([StrArg("")])) == Done(Initial().query, FindMark)
  {
  }

  /** An empty field list right after `find` is refused. */
  lemma EmptyFieldsRefused(st: FindState)
    requires st.last == FindMark && st.query.projection == []
    ensures Apply(st, Fields([ListArg([])])) == Raise(st, EmptyFields)
  {
  }

  /** The order of a mark along a chain; every call but `bind` moves strictly up. */
  function Rank(m: Mark): nat
  {
    match m
    case Start => 0
    case FindMark => 1
    case FieldsMark => 2
    case GroupByMark => 3
    case HavingMark => 4
    case SortMark => 5
    case LimitMark => 6
    case SkipMark => 7
    case OffsetMark => 7
    case LockSharedMark => 8
    case LockExclusiveMark => 8
    case BindMark => 9
  }

  /** An enabled call never moves down in rank, and only `bind` stays level. */
  lemma RankStep(last: Mark, c: Call)
    requires Enabled(MethodOf(c), last)
    ensures Rank(last) <= Rank(MarkOf(c))
    ensures !c.Bind? ==> Rank(last) < Rank(MarkOf(c))
  {
  }

  lemma {:induction false} ChainRanks(st: FindState, calls: seq<Call>)
    requires RunWith(Corrected, st, calls).Ok?
    decreases |calls|
    ensures forall j :: 0 <= j < |calls| && !calls[j].Bind? ==> Rank(st.last) < Rank(MarkOf(calls[j]))
    ensures forall i, j :: 0 <= i < j < |calls| && !calls[j].Bind? ==> Rank(MarkOf(calls[i])) < Rank(MarkOf(calls[j]))
  {
    if calls != [] {
      var s := ApplyWith(Corrected, st, calls[0]);
      assert s.error.None?;
      StepDiscipline(Corrected, st, calls[0]);
      RankStep(st.last, calls[0]);
      var rest := calls[1..];
      assert RunWith(Corrected, s.state, rest).Ok?;
      ChainRanks(s.state, rest);
      forall j | 1 <= j < |calls| && !calls[j].Bind?
        ensures Rank(MarkOf(calls[0])) < Rank(MarkOf(calls[j]))
      {
        assert calls[j] == rest[j - 1];
      }
      forall i, j | 0 <= i < j < |calls| && !calls[j].Bind?
        ensures Rank(MarkOf(calls[i])) < Rank(MarkOf(calls[j]))
      {
        if i > 0 {
          assert calls[i] == rest[i - 1] && calls[j] == rest[j - 1];
        }
      }
    }
  }

  /** In a chain whose calls all succeed, no method other than `bind` occurs twice,
      `skip` and `offset` do not both occur, and neither do the two lock methods. */
  lemma ChainOrder(calls: seq<Call>)
    requires RunWith(Corrected, Initial(), calls).Ok?
    ensures forall i, j :: 0 <= i < j < |calls| && !calls[j].Bind? ==>
      MarkOf(calls[i]) != MarkOf(calls[j]) && Rank(MarkOf(calls[i])) < Rank(MarkOf(calls[j]))
  {
    ChainRanks(Initial(), calls);
  }

  /** As written, `fields` with string arguments does not record its call, so a
      second `fields` is accepted: the chain find, fields("a"), fields("b")
      succeeds and projects both. */
  lemma FieldsRepeatsAsWritten()
    ensures var calls := [Find([]), Fields([StrArg("a")]), Fields([StrArg("b")])];
      && RunWith(AsWritten, Initial(), calls).Ok?
      && RunWith(AsWritten, Initial(), calls).value.query.projection == [Column("a"), Column("b")]
      && RunWith(Corrected, Initial(), calls) == Err(Hidden(FieldsM))
  {
    var calls := [Find([]), Fields([StrArg("a")]), Fields([StrArg("b")])];
    assert calls[1..] == [Fields([StrArg("a")]), Fields([StrArg("b")])];
    assert calls[1..][1..] == [Fields([StrArg("b")])];
    assert [StrArg("a")][1..] == [] && [StrArg("b")][1..] == [];
    assert StringArgs([]) == Some([]);
    assert StringArgs([StrArg("a")]) == Some(["a"] + []);
    assert StringArgs([StrArg("b")]) == Some(["b"] + []);
    assert ["a"] + [] == ["a"] && ["b"] + [] == ["b"];
    assert StringList([StrArg("a")]) == StringArgs([StrArg("a")]) == Some(["a"]);
    assert StringList([StrArg("b")]) == StringArgs([StrArg("b")]) == Some(["b"]);
  }
}

=== FILE: common.dfy ===
/** Failure-carrying datatypes shared by every module of the model.
    The modelled C++ code reports failures by throwing; here each failure is a value. */
module Common {

  datatype Option<+T> = None | Some(value: T)

  /** Pass, or the first failure met. */
  datatype Outcome<+E> = Pass | Fail(error: E)

  datatype Result<+T, +E> = Ok(value: T) | Err(error: E)

  /** The character that ends a C string. */
  const Terminator: char := '\0'

  /** The C string held by a buffer: everything before the first terminator. */
  function CString(buf: seq<char>): (r: string)
    ensures |r| <= |buf| && r == buf[..|r|] && Terminator !in r
    ensures |r| < |buf| ==> buf[|r|] == Terminator
  {
    if buf == [] || buf[0] == Terminator then []
    else [buf[0]] + CString(buf[1..])
  }

  /** A text without a terminator is its own C string. */
  lemma CStringWhole(s: string)
    requires Terminator !in s
    ensures CString(s) == s
  {
  }

  predicate IsPrefix(prefix: string, s: string)
  {
    |prefix| <= |s| && s[..|prefix|] == prefix
  }
}

=== FILE: js_completion.dfy ===
/** The JavaScript completion provider: the scanner that extracts the member chain
    under the cursor (`a.b().c`) from the text typed so far, and the prefix
    filtering of completion candidates. The chain object and the string/comment
    span helpers are abstract: the chain is a sequence of links, and the spans are
    inputs. */
module JsCompletion {
  import opened Common

  // ---------------------------------------------------------------------------
  // The chain

  datatype Link = Variable(name: string) | MethodCall(name: string) | Dot

  datatype Chain = Chain(links: seq<Link>, invalid: bool)

  function EmptyChain(): Chain
  {
    Chain([], false)
  }

  /** Appends a variable link; an empty name adds nothing and reports `false`. */
  function AddVariable(c: Chain, name: string): (Chain, bool)
  {
    if name == "" then (c, false) else (c.(links := c.links + [Variable(name)]), true)
  }

  /** Appends a method link; an empty name adds nothing and reports `false`. */
  function AddMethod(c: Chain, name: string): (Chain, bool)
  {
    if name == "" then (c, false) else (c.(links := c.links + [MethodCall(name)]), true)
  }

  function AddDot(c: Chain): Chain
  {
    c.(links := c.links + [Dot])
  }

  function Invalidate(c: Chain): Chain
  {
    c.(invalid := true)
  }

  // ---------------------------------------------------------------------------
  // Characters and identifiers

  predicate IsAlpha(c: char)
  {
    'a' <= c <= 'z' || 'A' <= c <= 'Z'
  }

  predicate IsDigit(c: char)
  {
    '0' <= c <= '9'
  }

  predicate IsSpace(c: char)
  {
    c == '\n' || c == ' ' || c == '\t' || c == '\r'
  }

  predicate IsCloser(c: char)
  {
    c == '}' || c == ')' || c == ']'
  }

  predicate IsOpener(c: char)
  {
    c == '{' || c == '[' || c == '('
  }

  function CloserOf(c: char): char
    requires IsOpener(c)
  {
    if c == '[' then ']' else if c == '{' then '}' else ')'
  }

  /** The identifier grammar: `_` or a letter, then `_`, letters and digits. */
  predicate IsIdentifier(w: string)
  {
    && |w| > 0
    && (w[0] == '_' || IsAlpha(w[0]))
    && forall i :: 0 <= i < |w| ==> w[i] == '_' || IsAlpha(w[i]) || IsDigit(w[i])
  }

  /** The identifier being read: empty, or an identifier. */
  predicate PendingOk(w: string)
  {
    w == "" || IsIdentifier(w)
  }

  /** Every name in the chain is an identifier and the chain does not start with a dot. */
  predicate WellFormed(c: Chain)
  {
    && (|c.links| > 0 ==> !c.links[0].Dot?)
    && forall k :: 0 <= k < |c.links| && !c.links[k].Dot? ==> IsIdentifier(c.links[k].name)
  }

  predicate HasMethod(c: Chain)
  {
    exists k :: 0 <= k < |c.links| && c.links[k].MethodCall?
  }

  /** Some position at or after `p` holds `c`. */
  predicate OccursFrom(s: string, p: nat, c: char)
  {
    exists q :: p <= q < |s| && s[q] == c
  }

  /** The position of the first newline at or after `p`. */
  function NextNewline(s: string, p: nat): (r: Option<nat>)
    decreases |s| - p
    ensures r.Some? ==> p <= r.value < |s| && s[r.value] == '\n'
    ensures r.Some? ==> forall q :: p <= q < r.value ==> s[q] != '\n'
    ensures r.None? ==> forall q :: p <= q < |s| ==> s[q] != '\n'
  {
    if p >= |s| then None
    else if s[p] == '\n' then Some(p)
    else NextNewline(s, p + 1)
  }

  // ---------------------------------------------------------------------------
  // Span helpers

  /** The span helpers for one input text. For a quote at `p`, `dq(p)`/`sq(p)` is the
      position just after the closing quote, `None` when the string is unterminated;
      for a block comment opening at `p`, `comment(p)` is where the comment ends, `None` when it is
      unterminated. */
  datatype Spans = Spans(dq: nat -> Option<nat>, sq: nat -> Option<nat>, comment: nat -> Option<nat>)

  /** Spans move forward. */
  ghost predicate ValidSpans(sp: Spans)
  {
    forall p: nat ::
      && (sp.dq(p).Some? ==> sp.dq(p).value > p)
      && (sp.sq(p).Some? ==> sp.sq(p).value > p)
      && (sp.comment(p).Some? ==> sp.comment(p).value >= p)
  }

  // ---------------------------------------------------------------------------
  // The scanner

  /** How the caller of a nested scan decides that a group was left unclosed: as
      written, only when the nested scan stopped exactly at the end of the text; as
      intended, whenever it stopped at or past the end. */
  datatype EndTest = ExactEnd | PastEnd

  predicate Unclosed(e: EndTest, pos: nat, n: nat)
  {
    if e == ExactEnd then pos == n else pos >= n
  }

  /** What a scan returns: the chain, the position it stopped at, and where the last
      chain element starts. */
  datatype ScanResult = ScanResult(chain: Chain, pos: nat, start: int)

  /** One step on a character that does not open a group: continue at `next` with a
      new chain and pending identifier, or return. */
  datatype Move =
    | Continue(next: nat, chain: Chain, ident: string, start: int)
    | Return(result: ScanResult)

  function ScanChar(s: string, sp: Spans, close: Option<char>, p: nat, chain: Chain, ident: string, start: int)
    : (m: Move)
    requires p < |s| && !IsOpener(s[p]) && ValidSpans(sp)
    ensures m.Continue? ==> m.next > p
    ensures m.Return? ==> m.result.pos >= p
    ensures m.Return? && !m.result.chain.invalid ==>
      close.Some? && m.result.pos < |s| && s[m.result.pos] == close.value
    ensures WellFormed(chain) && PendingOk(ident) ==>
      (m.Continue? ==> WellFormed(m.chain) && PendingOk(m.ident)) && (m.Return? ==> WellFormed(m.result.chain))
    ensures m.Continue? && HasMethod(m.chain) ==> HasMethod(chain)
    ensures m.Return? && HasMethod(m.result.chain) ==> HasMethod(chain)
  {
    var c := s[p];
    if c == '"' || c == '\'' then
      var span := if c == '"' then sp.dq(p) else sp.sq(p);
      if span.None? then Return(ScanResult(Invalidate(chain), p, start))
      else Continue(span.value, chain, ident, start)
    else if IsCloser(c) then
      if close == Some(c) then Return(ScanResult(chain, p, start))
      else Continue(p + 1, EmptyChain(), "", start)
    else if IsSpace(c) then Continue(p + 1, EmptyChain(), "", start)
    else if c == '/' then
      if p + 1 < |s| && s[p + 1] == '/' then
        (match NextNewline(s, p)
         case None => Continue(|s| + 1, EmptyChain(), "", start)
         case Some(nl) => Continue(nl + 1, chain, ident, start))
      else if p + 1 < |s| && s[p + 1] == '*' then
        (match sp.comment(p)
         case None => Return(ScanResult(Invalidate(chain), p, start))
         case Some(eoc) => Continue(eoc + 1, chain, ident, start))
      else Continue(p + 1, chain, ident, start)
    else if c == '\\' then
      (match NextNewline(s, p)
       case None => Continue(|s| + 1, EmptyChain(), "", start)
       case Some(nl) => Continue(nl + 1, chain, ident, start))
    else if c == '.' then
      if ident != "" then
        var (ch, added) := AddVariable(chain, ident);
        Continue(p + 1, AddDot(ch), "", if added then p - |ident| else start)
      else if p == 0 || chain.links == [] || s[p - 1] == '.' then
        Return(ScanResult(Invalidate(chain), p, start))
      else Continue(p + 1, AddDot(chain), "", start)
    else if IsDigit(c) then
      if ident != "" then Continue(p + 1, chain, ident + [c], start)
      else Continue(p + 1, EmptyChain(), ident, start)
    else if c == '_' || IsAlpha(c) then Continue(p + 1, chain, ident + [c], start)
    else Continue(p + 1, EmptyChain(), "", start)
  }

  /** After a nested group closed with `closer`: a `{...}` after an identifier
      clears the chain, `(...)` adds a method, `[...]` adds a variable. */
  function AfterGroup(chain: Chain, ident: string, closer: char, closedAt: nat, start: int): (r: (Chain, int))
    ensures WellFormed(chain) && PendingOk(ident) ==> WellFormed(r.0)
    ensures HasMethod(r.0) ==> HasMethod(chain) || closer == ')'
  {
    if ident == "" then (chain, start)
    else if closer == '}' then (EmptyChain(), start)
    else if closer == ')' then
      var (ch, added) := AddMethod(chain, ident);
      (ch, if added then closedAt - |ident| else start)
    else
      var (ch, added) := AddVariable(chain, ident);
      assert forall k :: 0 <= k < |chain.links| ==> ch.links[k] == chain.links[k];
      (ch, if added then closedAt - |ident| else start)
  }

  /** The scanner: reads from `p` until `close` (if any) or the end of the text. */
  function Scan(s: string, sp: Spans, e: EndTest, close: Option<char>, p: nat,
                chain: Chain, ident: string, start: int): (r: ScanResult)
    requires ValidSpans(sp)
    decreases if p < |s| then |s| - p else 0
    ensures r.pos >= p
    ensures close.Some? && !r.chain.invalid && r.pos < |s| ==> s[r.pos] == close.value
    ensures WellFormed(chain) && PendingOk(ident) ==> WellFormed(r.chain)
    ensures e == PastEnd && HasMethod(r.chain) ==> HasMethod(chain) || OccursFrom(s, p, ')')
  {
    if p >= |s| then
      var (ch, added) := AddVariable(chain, ident);
      ScanResult(ch, p, if added then p - |ident| else start)
    else if IsOpener(s[p]) then
      var closer := CloserOf(s[p]);
      var inner := Scan(s, sp, e, Some(closer), p + 1, EmptyChain(), "", p + 1);
      if Unclosed(e, inner.pos, |s|) || inner.chain.invalid then inner
      else
        var (ch, st) := AfterGroup(chain, ident, closer, inner.pos, start);
        var r := Scan(s, sp, e, close, inner.pos + 1, ch, "", st);
        assert e == PastEnd && HasMethod(r.chain) && !HasMethod(chain) ==> OccursFrom(s, p, ')') by {
          if e == PastEnd && HasMethod(r.chain) && !HasMethod(chain) {
            if !HasMethod(ch) {
              var q :| inner.pos + 1 <= q < |s| && s[q] == ')';
            } else {
              assert closer == ')' && s[inner.pos] == ')';
            }
          }
        }
        r
    else
      match ScanChar(s, sp, close, p, chain, ident, start)
      case Return(r) => r
      case Continue(next, ch, id, st) =>
        var r := Scan(s, sp, e, close, next, ch, id, st);
        assert e == PastEnd && HasMethod(r.chain) && !HasMethod(chain) ==> OccursFrom(s, p, ')') by {
          if e == PastEnd && HasMethod(r.chain) && !HasMethod(chain) {
            var q :| next <= q < |s| && s[q] == ')';
          }
        }
        r
  }

  /** The chain under the cursor at the end of `s`, as intended. */
  function ParseUntil(s: string, sp: Spans): ScanResult
    requires ValidSpans(sp)
  {
    Scan(s, sp, PastEnd, None, 0, EmptyChain(), "", 0)
  }

  /** The chain under the cursor at the end of `s`, as written. */
  function ParseUntilAsWritten(s: string, sp: Spans): ScanResult
    requires ValidSpans(sp)
  {
    Scan(s, sp, ExactEnd, None, 0, EmptyChain(), "", 0)
  }

  // ---------------------------------------------------------------------------
  // Properties of the scanner

  /** The returned chain is well formed: every name is an identifier and it does not
      start with a dot; and a method link is only ever added once its `)` was seen. */
  lemma ParseResultShape(s: string, sp: Spans)
    requires ValidSpans(sp)
    ensures WellFormed(ParseUntil(s, sp).chain)
    ensures HasMethod(ParseUntil(s, sp).chain) ==> ')' in s
  {
    var r := ParseUntil(s, sp);
    if HasMethod(r.chain) {
      var q :| 0 <= q < |s| && s[q] == ')';
      assert s[q] in s;
    }
  }

  /** Whitespace ends the chain: scanning on after it starts from an empty chain
      and an empty identifier. */
  lemma WhitespaceClears(s: string, sp: Spans, e: EndTest, close: Option<char>, p: nat,
                         chain: Chain, ident: string, start: int)
    requires ValidSpans(sp) && p < |s| && IsSpace(s[p])
    ensures Scan(s, sp, e, close, p, chain, ident, start) == Scan(s, sp, e, close, p + 1, EmptyChain(), "", start)
  {
  }

  /** A dot at the very beginning, after an empty chain, or right after another dot
      (with no pending identifier) invalidates the chain. */
  lemma BadDotInvalidates(s: string, sp: Spans, e: EndTest, close: Option<char>, p: nat,
                          chain: Chain, start: int)
    requires ValidSpans(sp) && p < |s| && s[p] == '.'
    requires p == 0 || chain.links == [] || s[p - 1] == '.'
    ensures Scan(s, sp, e, close, p, chain, "", start).chain.invalid
  {
  }

  /** Unterminated strings and comments invalidate the chain. */
  lemma UnterminatedInvalidates(s: string, sp: Spans, e: EndTest, close: Option<char>, p: nat,
                                chain: Chain, ident: string, start: int)
    requires ValidSpans(sp) && p < |s|
    requires || (s[p] == '"' && sp.dq(p).None?)
             || (s[p] == '\'' && sp.sq(p).None?)
             || (s[p] == '/' && p + 1 < |s| && s[p + 1] == '*' && sp.comment(p).None?)
    ensures Scan(s, sp, e, close, p, chain, ident, start).chain.invalid
  {
  }

  /** A digit extends a non-empty identifier and otherwise clears the chain; `_` and
      letters extend the identifier; any other plain character clears everything. */
  lemma IdentifierCharacters(s: string, sp: Spans, e: EndTest, close: Option<char>, p: nat,
                             chain: Chain, ident: string, start: int)
    requires ValidSpans(sp) && p < |s|
    ensures IsDigit(s[p]) && ident != "" ==>
      Scan(s, sp, e, close, p, chain, ident, start) == Scan(s, sp, e, close, p + 1, chain, ident + [s[p]], start)
    ensures IsDigit(s[p]) && ident == "" ==>
      Scan(s, sp, e, close, p, chain, ident, start) == Scan(s, sp, e, close, p + 1, EmptyChain(), "", start)
    ensures (s[p] == '_' || IsAlpha(s[p])) ==>
      Scan(s, sp, e, close, p, chain, ident, start) == Scan(s, sp, e, close, p + 1, chain, ident + [s[p]], start)
    ensures !IsAlpha(s[p]) && !IsDigit(s[p]) && !IsSpace(s[p]) && !IsOpener(s[p]) && !IsCloser(s[p])
            && s[p] !in {'_', '.', '/', '\\', '"', '\''} ==>
      Scan(s, sp, e, close, p, chain, ident, start) == Scan(s, sp, e, close, p + 1, EmptyChain(), "", start)
  {
  }

  /** The expected closer returns the chain read so far; any other closer clears it. */
  lemma Closers(s: string, sp: Spans, e: EndTest, close: Option<char>, p: nat,
                chain: Chain, ident: string, start: int)
    requires ValidSpans(sp) && p < |s| && IsCloser(s[p])
    ensures close == Some(s[p]) ==> Scan(s, sp, e, close, p, chain, ident, start) == ScanResult(chain, p, start)
    ensures close != Some(s[p]) ==>
      Scan(s, sp, e, close, p, chain, ident, start) == Scan(s, sp, e, close, p + 1, EmptyChain(), "", start)
  {
  }

  /** An unclosed or invalid group is the result of the whole scan; a closed group
      is skipped, and what it does to the chain depends on its closer. */
  lemma Groups(s: string, sp: Spans, close: Option<char>, p: nat, chain: Chain, ident: string, start: int)
    requires ValidSpans(sp) && p < |s| && IsOpener(s[p])
    ensures var inner := Scan(s, sp, PastEnd, Some(CloserOf(s[p])), p + 1, EmptyChain(), "", p + 1);
      var r := Scan(s, sp, PastEnd, close, p, chain, ident, start);
      && (inner.pos >= |s| || inner.chain.invalid ==> r == inner)
      && (inner.pos < |s| && !inner.chain.invalid ==>
            && s[inner.pos] == CloserOf(s[p])
            && var (ch, st) := AfterGroup(chain, ident, CloserOf(s[p]), inner.pos, start);
               r == Scan(s, sp, PastEnd, close, inner.pos + 1, ch, "", st))
  {
  }

  /** What a closed group does: nothing without a pending identifier; after one,
      `{...}` clears the chain, `(...)` adds a method and `[...]` a variable, and the
      chain now starts where the identifier did. */
  lemma GroupEffect(chain: Chain, ident: string, closer: char, closedAt: nat, start: int)
    ensures ident == "" ==> AfterGroup(chain, ident, closer, closedAt, start) == (chain, start)
    ensures ident != "" && closer == '}' ==> AfterGroup(chain, ident, closer, closedAt, start).0 == EmptyChain()
    ensures ident != "" && closer == ')' ==>
      AfterGroup(chain, ident, closer, closedAt, start) == (chain.(links := chain.links + [MethodCall(ident)]), closedAt - |ident|)
    ensures ident != "" && closer == ']' ==>
      AfterGroup(chain, ident, closer, closedAt, start) == (chain.(links := chain.links + [Variable(ident)]), closedAt - |ident|)
  {
  }

  /** The as-written end test treats a group whose nested scan ran past the end (a
      `//` comment or a `\` with no newline after it) as closed: for `f(//` it
      reports the method `f` although no `)` was typed, where the intended result is
      the unclosed group's empty chain. */
  lemma UnclosedCommentCounterexample(sp: Spans)
    requires ValidSpans(sp)
    ensures ')' !in "f(//"
    ensures ParseUntilAsWritten("f(//", sp).chain == Chain([MethodCall("f")], false)
    ensures ParseUntil("f(//", sp).chain == EmptyChain()
  {
    var s := "f(//";
    assert s[0] == 'f' && s[1] == '(' && s[2] == '/' && s[3] == '/';
    assert NextNewline(s, 2) == None;
    assert ScanChar(s, sp, Some(')'), 2, EmptyChain(), "", 2) == Continue(5, EmptyChain(), "", 2);
    assert ScanChar(s, sp, None, 0, EmptyChain(), "", 0) == Continue(1, EmptyChain(), "f", 0);
    forall e: EndTest
      ensures Scan(s, sp, e, Some(')'), 2, EmptyChain(), "", 2) == ScanResult(EmptyChain(), 5, 2)
      ensures Scan(s, sp, e, None, 0, EmptyChain(), "", 0) == Scan(s, sp, e, None, 1, EmptyChain(), "f", 0)
    {
      assert Scan(s, sp, e, Some(')'), 5, EmptyChain(), "", 2) == ScanResult(EmptyChain(), 5, 2);
    }
    GroupEffect(EmptyChain(), "f", ')', 5, 0);
    assert EmptyChain().links + [MethodCall("f")] == [MethodCall("f")] && |"f"| == 1;
    assert AfterGroup(EmptyChain(), "f", ')', 5, 0) == (Chain([MethodCall("f")], false), 4);
    assert Scan(s, sp, ExactEnd, None, 6, Chain([MethodCall("f")], false), "", 4).chain == Chain([MethodCall("f")], false);
  }

  // ---------------------------------------------------------------------------
  // Completion candidates

  /** The builtin keywords offered at the top level. */
  const Keywords: seq<string> := [
    "break", "case", "catch", "class", "const", "continue",
    "debugger", "default", "delete", "do", "else", "export",
    "extends", "finally", "for", "function", "if", "import",
    "in", "instanceof", "new", "return", "super", "switch",
    "this", "throw", "try", "typeof", "var", "void",
    "while", "with", "yield"]

  /** A member or global: whether it is callable, and its name. */
  datatype Member = Member(callable: bool, name: string)

  function Render(m: Member): string
  {
    if m.callable then m.name + "()" else m.name
  }

  /** The rendered members whose name starts with `prefix`, in order. */
  function MatchingMembers(prefix: string, members: seq<Member>): (r: seq<string>)
    ensures |r| <= |members|
    ensures forall x :: x in r <==> exists m :: m in members && IsPrefix(prefix, m.name) && x == Render(m)
  {
    if members == [] then []
    else
      var rest := MatchingMembers(prefix, members[1..]);
      assert forall m :: m in members <==> m == members[0] || m in members[1..];
      if IsPrefix(prefix, members[0].name) then [Render(members[0])] + rest else rest
  }

  /** The keywords that start with `prefix`, in order. */
  function MatchingWords(prefix: string, words: seq<string>): (r: seq<string>)
    ensures |r| <= |words|
    ensures forall x :: x in r <==> x in words && IsPrefix(prefix, x)
  {
    if words == [] then []
    else
      var rest := MatchingWords(prefix, words[1..]);
      assert forall w :: w in words <==> w == words[0] || w in words[1..];
      if IsPrefix(prefix, words[0]) then [words[0]] + rest else rest
  }

  /** Filtering member by member: the matches of a concatenation are the matches of
      each part, in order, and a single member is kept (rendered) exactly when its
      name starts with the prefix. Together these fix both order and multiplicity. */
  lemma {:induction false} MatchingMembersAppend(prefix: string, a: seq<Member>, b: seq<Member>)
    ensures MatchingMembers(prefix, a + b) == MatchingMembers(prefix, a) + MatchingMembers(prefix, b)
    ensures |a| == 1 ==> MatchingMembers(prefix, a) == (if IsPrefix(prefix, a[0].name) then [Render(a[0])] else [])
  {
    if a != [] {
      assert (a + b)[1..] == a[1..] + b;
      MatchingMembersAppend(prefix, a[1..], b);
    } else {
      assert a + b == b;
    }
  }

  /** The same laws for keywords. */
  lemma {:induction false} MatchingWordsAppend(prefix: string, a: seq<string>, b: seq<string>)
    ensures MatchingWords(prefix, a + b) == MatchingWords(prefix, a) + MatchingWords(prefix, b)
    ensures |a| == 1 ==> MatchingWords(prefix, a) == (if IsPrefix(prefix, a[0]) then [a[0]] else [])
  {
    if a != [] {
      assert (a + b)[1..] == a[1..] + b;
      MatchingWordsAppend(prefix, a[1..], b);
    } else {
      assert a + b == b;
    }
  }

  /** `add_completions`: appends the matching members of an object to `list`, in
      member order, and returns how many it appended. */
  function AddCompletions(prefix: string, members: seq<Member>, list: seq<string>): (r: (seq<string>, nat))
    ensures |r.0| == |list| + r.1 && r.0[..|list|] == list
    ensures r.0[|list|..] == MatchingMembers(prefix, members)
    ensures forall x :: x in r.0[|list|..] <==> exists m :: m in members && IsPrefix(prefix, m.name) && x == Render(m)
  {
    var added := MatchingMembers(prefix, members);
    assert (list + added)[|list|..] == added;
    (list + added, |added|)
  }

  /** Adding the completions of the members in two batches gives the same list as
      adding them all at once: the loop appends one member at a time, in order. */
  lemma AddCompletionsInBatches(prefix: string, a: seq<Member>, b: seq<Member>, list: seq<string>)
    ensures AddCompletions(prefix, a + b, list).0 ==
            AddCompletions(prefix, b, AddCompletions(prefix, a, list).0).0
    ensures AddCompletions(prefix, a + b, list).1 ==
            AddCompletions(prefix, a, list).1 + AddCompletions(prefix, b, []).1
  {
    MatchingMembersAppend(prefix, a, b);
  }

  /** `complete_chain`: for a one-element chain whose text is `prefix`, the
      matching globals (rendered as `add_completions` renders members), then the
      matching keywords, then whatever the generic provider offers. */
  function CompleteChain(chainSize: nat, prefix: string, globals: seq<Member>, generic: seq<string>): (r: seq<string>)
    ensures chainSize != 1 ==> r == generic
    ensures |r| >= |generic|
    ensures chainSize == 1 ==>
      r == AddCompletions(prefix, globals, []).0 + MatchingWords(prefix, Keywords) + generic
    ensures chainSize == 1 ==>
      && r[|r| - |generic|..] == generic
      && forall x :: x in r[..|r| - |generic|] <==>
           || (exists m :: m in globals && IsPrefix(prefix, m.name) && x == Render(m))
           || (x in Keywords && IsPrefix(prefix, x))
  {
    if chainSize == 1 then
      var top := MatchingMembers(prefix, globals) + MatchingWords(prefix, Keywords);
      assert (top + generic)[|top|..] == generic && (top + generic)[..|top|] == top;
      assert AddCompletions(prefix, globals, []).0 == MatchingMembers(prefix, globals);
      top + generic
    else generic
  }

  /** Keywords are offered only for a one-element chain. */
  lemma KeywordsOnlyAtTopLevel(chainSize: nat, prefix: string, globals: seq<Member>, generic: seq<string>, k: string)
    requires k in Keywords && k !in generic && IsPrefix(prefix, k)
    ensures k in CompleteChain(chainSize, prefix, globals, generic) <==> chainSize == 1
  {
    var r := CompleteChain(chainSize, prefix, globals, generic);
    if chainSize == 1 {
      assert k in r[..|r| - |generic|];
    }
  }
}

=== FILE: python_bridge.dfy ===
/** The sequential logic of the Python bridge: copying converted text into a fixed
    wide-character buffer, running a list of statements, deciding whether an
    interactive line needs more input, routing errors between the shell and
    Python, and the stdin line buffer behind `input()` and `sys.stdin.read(n)`.
    The interpreter itself is a parameter: what it answers for a statement, which
    exception it raised, what the console prompt returned. */
module PythonBridge {
  import opened Common

  // ---------------------------------------------------------------------------
  // Copying into a fixed buffer

  /** Copies the already converted text into the destination buffer `dst`: fails
      with `error` when the text and its terminator do not fit, and otherwise
      overwrites the front of `dst` with the text and a terminator, leaving the
      rest of `dst` as it was. */
  method CopyPyChar(converted: string, dst: seq<char>, error: string) returns (r: Result<seq<char>, string>)
    ensures r.Err? <==> |converted| >= |dst|
    ensures r.Err? ==> r.error == error
    ensures r.Ok? ==> |r.value| == |dst|
    ensures r.Ok? ==> r.value[..|converted|] == converted && r.value[|converted|] == Terminator
    ensures r.Ok? ==> r.value[|converted| + 1..] == dst[|converted| + 1..]
  {
    if |converted| >= |dst| {
      return Err(error);
    }
    var buf := dst;
    var i := 0;
    while i < |converted|
      invariant 0 <= i <= |converted|
      invariant |buf| == |dst|
      invariant buf[..i] == converted[..i]
      invariant buf[i..] == dst[i..]
    {
      buf := buf[i := converted[i]];
      i := i + 1;
    }
    buf := buf[|converted| := Terminator];
    return Ok(buf);
  }

  /** Reading the copied buffer back as a C string gives the text again, for any
      text without an embedded terminator. */
  lemma {:induction false} CopyRoundTrip(converted: string, buf: seq<char>)
    requires Terminator !in converted
    requires |converted| < |buf| && buf[..|converted|] == converted && buf[|converted|] == Terminator
    ensures CString(buf) == converted
    decreases |converted|
  {
    if converted != [] {
      assert buf[0] == converted[0];
      assert buf[1..][..|converted| - 1] == converted[1..];
      CopyRoundTrip(converted[1..], buf[1..]);
    }
  }

  // ---------------------------------------------------------------------------
  // Running a list of statements

  /** The interpreter's answer for the next statement, given every statement run
      so far (the last one is the statement being run): `None` on success, or the
      error text. */
  type Interpreter = seq<string> -> Option<string>

  /** The interpreter's answer for the `k`-th statement, run after the ones before it. */
  function Answer(statements: seq<string>, run: Interpreter, k: nat): Option<string>
    requires k < |statements|
  {
    run(statements[..k + 1])
  }

  /** Runs the statements in order and stops at the first failure, whose error the
      interpreter prints (`printed`); `executed` counts the statements handed to the
      interpreter. The caller's `error` is passed through and never written. */
  method RawExecute(statements: seq<string>, run: Interpreter, error0: string)
    returns (ok: bool, executed: nat, error: string, printed: Option<string>)
    ensures executed <= |statements|
    ensures error == error0
    ensures ok <==> forall k :: 0 <= k < |statements| ==> Answer(statements, run, k).None?
    ensures ok ==> executed == |statements| && printed.None?
    ensures !ok ==> && executed > 0
                    && Answer(statements, run, executed - 1).Some?
                    && printed == Answer(statements, run, executed - 1)
                    && forall k :: 0 <= k < executed - 1 ==> Answer(statements, run, k).None?
  {
    ok := true;
    executed := 0;
    error := error0;
    printed := None;
    while ok && executed < |statements|
      invariant executed <= |statements|
      invariant forall k :: 0 <= k < executed - 1 ==> Answer(statements, run, k).None?
      invariant ok ==> printed.None? && forall k :: 0 <= k < executed ==> Answer(statements, run, k).None?
      invariant !ok ==> executed > 0 && Answer(statements, run, executed - 1).Some?
                        && printed == Answer(statements, run, executed - 1)
    {
      var answer := Answer(statements, run, executed);
      executed := executed + 1;
      if answer.Some? {
        ok := false;
        printed := answer;
      }
    }
  }

  // ---------------------------------------------------------------------------
  // Continuation of interactive input

  datatype InputState = Complete | ContinuedSingle | ContinuedBlock

  /** What running one interactive chunk produced: success, or an exception. For
      an exception, `syntax` tells whether it is a syntax or indentation error, and
      `message` is its message when its value unpacks as a message and a detail. */
  datatype RunResult = Succeeded | Raised(syntax: bool, message: Option<string>)

  /** The input state, and whether the pending error is printed (otherwise it is
      cleared); `Terminated` is the process ending because an exception escaped a
      function that promises not to throw. */
  datatype Verdict = Verdict(state: InputState, printed: bool) | Terminated

  const UnexpectedCharacter: string := "unexpected character after line continuation character"
  const EofWhileScanning: string := "EOF while scanning triple-quoted string literal"
  const UnterminatedTripleQuoted: string := "unterminated triple-quoted string literal"
  const WasNeverClosed: string := "was never closed"
  const UnexpectedEof: string := "unexpected EOF while parsing"
  const ExpectedIndentedBlock: string := "expected an indented block"

  /** The chunk ends in an explicit line continuation: a backslash and a newline. */
  predicate EndsWithContinuation(code: string)
  {
    |code| >= 2 && code[|code| - 2] == '\\' && code[|code| - 1] == '\n'
  }

  /** The messages that ask for more lines of the same statement. */
  predicate SingleMessage(code: string, msg: string)
  {
    || (msg == UnexpectedCharacter && EndsWithContinuation(code))
    || msg == EofWhileScanning
    || msg == UnterminatedTripleQuoted
  }

  /** The messages that ask for the rest of a block: a bracket reported as never
      closed (a three-character quoted bracket and a space, then the phrase), an
      unexpected end of input, a missing indented block. */
  predicate BlockMessage(msg: string)
  {
    || (|msg| >= 4 && msg[4..] == WasNeverClosed)
    || msg == UnexpectedEof
    || msg == ExpectedIndentedBlock
  }

  /** The state for a syntax error message, tried in the source's order; taking
      the text after the fourth character of a shorter message throws. */
  function ClassifyMessage(code: string, msg: string): (r: Option<InputState>)
    ensures r == None <==> (|msg| < 4 && msg != UnexpectedCharacter && msg != EofWhileScanning
                            && msg != UnterminatedTripleQuoted)
  {
    if msg == UnexpectedCharacter then
      Some(if EndsWithContinuation(code) then ContinuedSingle else Complete)
    else if msg == EofWhileScanning || msg == UnterminatedTripleQuoted then Some(ContinuedSingle)
    else if |msg| < 4 then None
    else if msg[4..] == WasNeverClosed || msg == UnexpectedEof || msg == ExpectedIndentedBlock then
      Some(ContinuedBlock)
    else Some(Complete)
  }

  /** The decision after running an interactive chunk. */
  function ExecuteInteractive(code: string, result: RunResult, flush: bool): (v: Verdict)
    ensures v.Verdict? && result.Raised? ==> (v.printed <==> v.state == Complete)
    ensures v.Verdict? && result.Succeeded? ==> !v.printed
    ensures flush && result.Raised? ==> v == Verdict(Complete, true)
    ensures v.Terminated? ==> !flush && result.Raised? && result.message.Some? && |result.message.value| < 4
  {
    match result
    case Succeeded => Verdict(if EndsWithContinuation(code) then ContinuedSingle else Complete, false)
    case Raised(syntax, message) =>
      if flush || !syntax || message.None? then Verdict(Complete, true)
      else
        match ClassifyMessage(code, message.value)
        case None => Terminated
        case Some(state) => Verdict(state, state == Complete)
  }

  /** Which chunks wait for more input, in terms of the message tables: a single
      statement continues exactly on its messages or on a successful chunk ending in
      a line continuation, a block continues exactly on its messages, and nothing
      continues when the input is being flushed. */
  lemma ContinuationRules(code: string, result: RunResult, flush: bool)
    requires ExecuteInteractive(code, result, flush).Verdict?
    ensures var st := ExecuteInteractive(code, result, flush).state;
      && (st == ContinuedSingle <==>
            || (result.Succeeded? && EndsWithContinuation(code))
            || (result.Raised? && !flush && result.syntax && result.message.Some?
                && SingleMessage(code, result.message.value)))
      && (st == ContinuedBlock <==>
            result.Raised? && !flush && result.syntax && result.message.Some?
            && BlockMessage(result.message.value) && !SingleMessage(code, result.message.value)
            && result.message.value != UnexpectedCharacter)
  {
    if result.Raised? && !flush && result.syntax && result.message.Some? {
      var msg := result.message.value;
      if msg == UnexpectedCharacter {
        assert msg != EofWhileScanning && msg != UnterminatedTripleQuoted;
      } else if msg == EofWhileScanning || msg == UnterminatedTripleQuoted {
        assert msg != UnexpectedCharacter;
      }
    }
  }

  /** The process ends exactly for a syntax error whose message is shorter than
      four characters (none of the single-statement messages is that short), and
      only when the input is not being flushed. */
  lemma ShortMessageTerminates(code: string, result: RunResult, flush: bool)
    ensures ExecuteInteractive(code, result, flush).Terminated? <==>
      !flush && result.Raised? && result.syntax && result.message.Some? && |result.message.value| < 4
  {
    if !flush && result.Raised? && result.syntax && result.message.Some? && |result.message.value| < 4 {
      var msg := result.message.value;
      assert |UnexpectedCharacter| > 4 && |EofWhileScanning| > 4 && |UnterminatedTripleQuoted| > 4;
      assert ClassifyMessage(code, msg) == None;
    }
  }

  // ---------------------------------------------------------------------------
  // Error routing

  /** The Python exception classes the bridge raises. `DbError` and `ShellError` are
      the shell's own classes; their argument is a code and a message. */
  datatype PyClass = DbError | ShellError | SystemError | RuntimeError | ValueError | TypeError

  /** A Python value as far as error arguments go. */
  datatype PyValue = PyNone | PyInt(i: int) | PyStr(s: string) | PyOther

  datatype PyException = PyException(cls: PyClass, args: seq<PyValue>)

  /** A shell error: a code and its text. */
  datatype ShellErr = ShellErr(code: int, what: string)

  /** Codes below this are MySQL server and client error codes. */
  const FirstShellCode: int := 50000

  /** Raises a shell error in Python: MySQL codes as the database error class,
      every other code as the shell error class, with the code and the text. The
      text is handed over as a C string, so it stops at an embedded terminator. */
  function SetShellError(e: ShellErr): (x: PyException)
    ensures x.cls == DbError <==> e.code < FirstShellCode
    ensures x.cls == ShellError <==> e.code >= FirstShellCode
    ensures x.args == [PyInt(e.code), PyStr(CString(e.what))]
  {
    PyException(if e.code < FirstShellCode then DbError else ShellError, [PyInt(e.code), PyStr(CString(e.what))])
  }

  /** The family of a shell exception, as far as the Python class goes. */
  datatype ExcKind = ArgumentKind | TypeKind | RuntimeKind | OtherKind

  /** A shell exception's error record: `code` is -1 when the record has none and
      `typeName`, `message`, `location` are empty when absent. */
  datatype ShellException = ShellException(kind: ExcKind, typeName: string, message: string, code: int, location: string)

  function Digits(n: nat): (r: string)
    ensures |r| > 0
    ensures forall k :: 0 <= k < |r| ==> '0' <= r[k] <= '9'
  {
    if n < 10 then [(n + '0' as int) as char] else Digits(n / 10) + [(n % 10 + '0' as int) as char]
  }

  /** The decimal rendering of a signed number. */
  function Decimal(i: int): (r: string)
    ensures |r| > 0 && (r[0] == '-' <==> i < 0)
  {
    if i < 0 then "-" + Digits(-i) else Digits(i)
  }

  /** The Python class for a shell exception that does not take the shell-error
      route: its family's class when it has both a type and a message, otherwise
      the runtime error class. */
  function PythonClass(e: ShellException): (cls: PyClass)
    ensures cls in {RuntimeError, ValueError, TypeError}
    ensures cls == ValueError <==> e.message != "" && e.typeName != "" && e.kind == ArgumentKind
    ensures cls == TypeError <==> e.message != "" && e.typeName != "" && e.kind == TypeKind
  {
    if e.message == "" || e.typeName == "" then RuntimeError
    else match e.kind
      case ArgumentKind => ValueError
      case TypeKind => TypeError
      case _ => RuntimeError
  }

  predicate EndsWith(s: string, suffix: string)
  {
    |suffix| <= |s| && s[|s| - |suffix|..] == suffix
  }

  lemma EndsWithTransitive(s: string, t: string, u: string)
    requires EndsWith(s, t) && EndsWith(t, u)
    ensures EndsWith(s, u)
  {
    assert s[|s| - |u|..] == s[|s| - |t|..][|t| - |u|..];
  }

  /** What a non-empty error text ends with: the message, the location, a newline. */
  function Tail(e: ShellException, loc: string): string
  {
    e.message + (if loc != "" then " at " + loc else "") + "\n"
  }

  /** The error text: empty without a message; otherwise the type name (for
      families without their own class), the code (unless absent), a colon, the
      message, the location, and a newline. */
  function ErrorText(e: ShellException, loc: string): (r: string)
    ensures e.message == "" ==> r == ""
    ensures e.message != "" ==> EndsWith(r, Tail(e, loc))
  {
    if e.message == "" then ""
    else
      var head := (if e.typeName != "" && e.kind == OtherKind then e.typeName else "")
                  + (if e.code != -1 then " (" + Decimal(e.code) + ")" else "");
      var pre := if head != "" then head + ": " else "";
      assert (pre + Tail(e, loc))[|pre + Tail(e, loc)| - |Tail(e, loc)|..] == Tail(e, loc);
      pre + Tail(e, loc)
  }

  /** Prefixes a text with its location, when there is one. */
  function Located(loc: string, text: string): (r: string)
    ensures EndsWith(r, text)
    ensures loc == "" ==> r == text
    ensures loc != "" ==> |r| == |loc| + 2 + |text| && r[..|loc| + 2] == loc + ": "
  {
    if loc == "" then text
    else
      var r := loc + ": " + text;
      assert r[..|loc| + 2] == loc + ": ";
      assert r[|r| - |text|..] == text;
      r
  }

  /** Raises a shell exception in Python: a positive code goes the shell-error
      route with the code and the message; otherwise the exception's own class is
      raised with its error text, located at the exception's location or else at
      the caller's. */
  function SetPythonError(e: ShellException, location: string): (x: Result<PyException, ShellErr>)
    ensures x.Err? <==> e.code > 0
    ensures x.Err? ==> x.error == ShellErr(e.code, e.message)
    ensures x.Ok? ==>
      var loc := if e.location == "" then location else e.location;
      x.value == PyException(PythonClass(e), [PyStr(Located(loc, ErrorText(e, loc)))])
  {
    if e.code > 0 then Err(ShellErr(e.code, e.message))
    else
      var loc := if e.location == "" then location else e.location;
      Ok(PyException(PythonClass(e), [PyStr(Located(loc, ErrorText(e, loc)))]))
  }

  /** A Python error raised from a shell exception without a positive code ends
      with the message, the location and a newline; without a message it is only
      the location. */
  lemma PythonErrorText(e: ShellException, location: string)
    requires e.code <= 0
    ensures var loc := if e.location == "" then location else e.location;
      var s := SetPythonError(e, location).value.args[0].s;
      && (e.message != "" ==> EndsWith(s, Tail(e, loc)))
      && (e.message == "" ==> s == (if loc == "" then "" else loc + ": "))
  {
    var loc := if e.location == "" then location else e.location;
    var text := ErrorText(e, loc);
    var s := Located(loc, text);
    if e.message != "" {
      EndsWithTransitive(s, text, Tail(e, loc));
    } else if loc != "" {
      assert s == loc + ": " + "";
      assert loc + ": " + "" == loc + ": ";
    }
  }

  /** The code and message stored in an exception's arguments: a pair whose first
      item is `None` (code 0) or a C `int`, and whose second item is a string that
      the `s` format accepts, that is, one without an embedded terminator. */
  function CodeAndMessage(args: seq<PyValue>): (r: Option<(int, string)>)
    ensures r.Some? ==> |args| == 2 && args[1] == PyStr(r.value.1) && Terminator !in r.value.1
    ensures r.Some? && args[0] == PyNone ==> r.value.0 == 0
    ensures r.Some? && args[0] != PyNone ==> args[0] == PyInt(r.value.0) && IsCInt(r.value.0)
    ensures (&& |args| == 2 && args[1].PyStr? && Terminator !in args[1].s
             && (args[0] == PyNone || (args[0].PyInt? && IsCInt(args[0].i)))) ==> r.Some?
  {
    if |args| != 2 || !args[1].PyStr? || Terminator in args[1].s then None
    else if args[0] == PyNone then Some((0, args[1].s))
    else if args[0].PyInt? && IsCInt(args[0].i) then Some((args[0].i, args[1].s))
    else None
  }

  predicate IsCInt(i: int)
  {
    -0x8000_0000 <= i < 0x8000_0000
  }

  /** The shell exceptions a pending Python exception turns back into. */
  datatype Rethrown = MysqlError(msg: string, code: int) | RuntimeErr(msg: string) | CodedException(msg: string, code: int)

  /** Converts a pending shell-class Python exception back into a shell exception:
      the database class as a MySQL error with its code; the shell class as a
      runtime error for a code up to 0 and otherwise as an exception with its code.
      Other classes and unreadable arguments leave the Python error pending. */
  function ThrowIfMysqlshError(x: PyException): (r: Option<Rethrown>)
    ensures r.Some? ==> x.cls in {DbError, ShellError} && CodeAndMessage(x.args).Some?
    ensures r.Some? && x.cls == DbError ==> r.value == MysqlError(CodeAndMessage(x.args).value.1, CodeAndMessage(x.args).value.0)
    ensures r.Some? && x.cls == ShellError ==>
      var (code, msg) := CodeAndMessage(x.args).value;
      r.value == if code <= 0 then RuntimeErr(msg) else CodedException(msg, code)
    ensures x.cls in {DbError, ShellError} && CodeAndMessage(x.args).Some? ==> r.Some?
  {
    if x.cls != DbError && x.cls != ShellError then None
    else match CodeAndMessage(x.args)
      case None => None
      case Some((code, msg)) =>
        if x.cls == DbError then Some(MysqlError(msg, code))
        else if code <= 0 then Some(RuntimeErr(msg))
        else Some(CodedException(msg, code))
  }

  /** A message with an embedded terminator is refused by the `s` format, so the
      Python error stays pending. */
  lemma EmbeddedTerminatorStaysPending()
    ensures ThrowIfMysqlshError(PyException(DbError, [PyInt(1), PyStr("a\0b")])) == None
  {
    assert "a\0b"[1] == Terminator;
  }

  /** A shell error sent into Python and back keeps its code and the C string of
      its message (the whole message when it holds no terminator): as a MySQL error
      below 50000 and as a coded shell exception from 50000 on. */
  lemma ShellErrorRoundTrip(e: ShellErr)
    requires IsCInt(e.code)
    ensures e.code < FirstShellCode ==> ThrowIfMysqlshError(SetShellError(e)) == Some(MysqlError(CString(e.what), e.code))
    ensures e.code >= FirstShellCode ==> ThrowIfMysqlshError(SetShellError(e)) == Some(CodedException(CString(e.what), e.code))
    ensures Terminator !in e.what ==> CString(e.what) == e.what
  {
    assert CodeAndMessage(SetShellError(e).args) == Some((e.code, CString(e.what)));
    if Terminator !in e.what {
      CStringWhole(e.what);
    }
  }

  /** A shell exception with a positive code survives the trip into Python and back
      with its message and code. */
  lemma CodedExceptionRoundTrip(e: ShellException, location: string)
    requires e.code > 0 && IsCInt(e.code)
    ensures var x := SetShellError(SetPythonError(e, location).error);
      ThrowIfMysqlshError(x) == Some(if e.code < FirstShellCode then MysqlError(CString(e.message), e.code)
                                     else CodedException(CString(e.message), e.code))
  {
    ShellErrorRoundTrip(ShellErr(e.code, e.message));
  }

  // ---------------------------------------------------------------------------
  // The stdin line buffer

  /** What the console prompt returned: a line, or anything but Ok (cancelled,
      end of input). */
  datatype PromptAnswer = Answered(text: string) | NotAnswered

  datatype PromptResult = PromptOk | Cancel

  /** One `read_line`: a line from the buffer, or a prompt. */
  datatype LineRead = LineRead(result: PromptResult, line: string, buffer: string, prompted: bool)

  function FirstNewline(s: string): (r: Option<nat>)
    ensures r.Some? ==> r.value < |s| && s[r.value] == '\n' && '\n' !in s[..r.value]
    ensures r.None? <==> '\n' !in s
  {
    if s == [] then None
    else if s[0] == '\n' then Some(0)
    else match FirstNewline(s[1..])
      case None => None
      case Some(k) =>
        assert s[..k + 1] == [s[0]] + s[1..][..k];
        Some(k + 1)
  }

  /** A leftover line in the buffer is returned with its newline; otherwise the
      prompt is consulted: a non-Ok answer cancels with an empty line and keeps the
      buffer, an answer is returned after the buffer with a newline added, and the
      buffer is emptied. */
  function ReadLine(buffer: string, answer: PromptAnswer): (r: LineRead)
    ensures r.prompted <==> '\n' !in buffer
    ensures !r.prompted ==> r.result == PromptOk && r.line + r.buffer == buffer && |r.line| > 0
                            && r.line[|r.line| - 1] == '\n' && '\n' !in r.line[..|r.line| - 1]
    ensures r.prompted && answer.NotAnswered? ==> r == LineRead(Cancel, "", buffer, true)
    ensures r.prompted && answer.Answered? ==> r == LineRead(PromptOk, buffer + answer.text + "\n", "", true)
  {
    match FirstNewline(buffer)
    case Some(n) =>
      assert buffer[..n + 1] + buffer[n + 1..] == buffer;
      assert buffer[..n + 1][..n] == buffer[..n];
      LineRead(PromptOk, buffer[..n + 1], buffer[n + 1..], false)
    case None =>
      match answer
      case NotAnswered => LineRead(Cancel, "", buffer, true)
      case Answered(text) => LineRead(PromptOk, buffer + text + "\n", "", true)
  }

  /** What a prompt contributes to the input stream. */
  function Typed(answer: PromptAnswer): string
  {
    if answer.Answered? then answer.text + "\n" else ""
  }

  /** No input is lost or invented: a line read, followed by the buffer left,
      is the buffer before followed by what was typed; a cancel reads nothing;
      and every line read ends with a newline. */
  lemma ReadLineConserves(buffer: string, answer: PromptAnswer)
    ensures var r := ReadLine(buffer, answer);
      && (r.result == PromptOk ==>
            && r.line + r.buffer == buffer + (if r.prompted then Typed(answer) else "")
            && |r.line| > 0 && r.line[|r.line| - 1] == '\n')
      && (r.result == Cancel ==> r.line == "" && r.buffer == buffer && r.prompted && answer.NotAnswered?)
  {
    var r := ReadLine(buffer, answer);
    if r.prompted && answer.Answered? {
      assert r.line + r.buffer == buffer + (answer.text + "\n");
    }
  }

  datatype RawInputResult = Line(text: string) | KeyboardInterrupt

  /** `input()`: reads a line and drops its last character; a cancelled prompt
      raises a keyboard interrupt. */
  function RawInput(buffer: string, answer: PromptAnswer): (r: (RawInputResult, string))
    ensures r.0.KeyboardInterrupt? <==> ReadLine(buffer, answer).result == Cancel
    ensures r.1 == ReadLine(buffer, answer).buffer
    ensures r.0.Line? ==> |r.0.text| + 1 == |ReadLine(buffer, answer).line|
                          && r.0.text == ReadLine(buffer, answer).line[..|r.0.text|]
  {
    var lr := ReadLine(buffer, answer);
    if lr.result == Cancel then (KeyboardInterrupt, lr.buffer)
    else
      var line := if lr.line != "" then lr.line[..|lr.line| - 1] else lr.line;
      (Line(line), lr.buffer)
  }

  /** The character dropped by `input()` is exactly the line's newline. */
  lemma RawInputStripsNewline(buffer: string, answer: PromptAnswer)
    requires RawInput(buffer, answer).0.Line?
    ensures RawInput(buffer, answer).0.text + "\n" == ReadLine(buffer, answer).line
  {
    ReadLineConserves(buffer, answer);
    var line := ReadLine(buffer, answer).line;
    assert line == line[..|line| - 1] + [line[|line| - 1]];
  }

  /** What the first `k` prompts typed, given the console's answers in order. */
  function TypedPrefix(answers: nat -> PromptAnswer, k: nat): string
  {
    if k == 0 then "" else TypedPrefix(answers, k - 1) + Typed(answers(k - 1))
  }

  /** One successful line read keeps what was gathered, followed by the buffer,
      equal to the original buffer followed by what was typed, and gathers at
      least one character. */
  lemma GatherStep(buffer0: string, gathered: string, buffer: string, answers: nat -> PromptAnswer, prompts: nat,
                   line: string, rest: string, prompted: bool)
    requires gathered + buffer == buffer0 + TypedPrefix(answers, prompts)
    requires line + rest == buffer + (if prompted then Typed(answers(prompts)) else "")
    ensures (gathered + line) + rest == buffer0 + TypedPrefix(answers, if prompted then prompts + 1 else prompts)
  {
    var typed := if prompted then Typed(answers(prompts)) else "";
    var next := if prompted then prompts + 1 else prompts;
    assert TypedPrefix(answers, next) == TypedPrefix(answers, prompts) + typed;
    assert buffer0 + (TypedPrefix(answers, prompts) + typed) == (buffer0 + TypedPrefix(answers, prompts)) + typed;
    Regroup(gathered, line, rest, buffer, typed, buffer0 + TypedPrefix(answers, prompts));
  }

  /** A line read from the buffer shortens it; a prompted line is longer than the
      whole buffer it empties. */
  lemma LineProgress(buffer: string, answer: PromptAnswer, lr: LineRead)
    requires lr == ReadLine(buffer, answer) && lr.result == PromptOk
    ensures lr.prompted ==> answer.Answered? && lr.buffer == "" && |lr.line| > |buffer|
    ensures !lr.prompted ==> |lr.line| + |lr.buffer| == |buffer| && |lr.line| > 0
  {
    ReadLineConserves(buffer, answer);
    assert |lr.line + lr.buffer| == |lr.line| + |lr.buffer|;
  }

  /** Regrouping a concatenation. */
  lemma Regroup(g: string, line: string, rest: string, buffer: string, typed: string, before: string)
    requires line + rest == buffer + typed && g + buffer == before
    ensures (g + line) + rest == before + typed
  {
    calc {
      (g + line) + rest;
      g + (line + rest);
      g + (buffer + typed);
      (g + buffer) + typed;
    }
  }

  /** Handing back the first `n` gathered characters and returning the rest to the
      front of the buffer loses nothing. */
  lemma SplitGathered(gathered: string, buffer: string, n: nat)
    requires n <= |gathered|
    ensures gathered[..n] + (if |gathered| > n then gathered[n..] + buffer else buffer) == gathered + buffer
  {
    assert gathered == gathered[..n] + gathered[n..];
  }

  /** Position `k` of `input` starts a line: it is the start, or follows a newline. */
  predicate LineBoundary(input: string, k: nat)
  {
    k == 0 || (k <= |input| && input[k - 1] == '\n')
  }

  /** The text is non-empty and ends with a newline. */
  predicate EndsLine(s: string)
  {
    |s| > 0 && s[|s| - 1] == '\n'
  }

  lemma EndsLineAppend(previous: string, line: string)
    requires |line| > 0 && line[|line| - 1] == '\n'
    ensures EndsLine(previous + line)
  {
    assert (previous + line)[|previous + line| - 1] == line[|line| - 1];
  }

  /** Gathering whole lines keeps the gathered text line-aligned in the input: it
      ends with a newline, and so does the part gathered before the last line. */
  lemma LineAligned(previous: string, line: string, rest: string, input: string)
    requires previous == "" || EndsLine(previous)
    requires |line| > 0 && line[|line| - 1] == '\n'
    requires input == (previous + line) + rest
    ensures |previous| + |line| <= |input|
    ensures input[|previous| + |line| - 1] == '\n'
    ensures previous == "" || input[|previous| - 1] == '\n'
  {
    assert (previous + line)[|previous| + |line| - 1] == line[|line| - 1];
    assert input[|previous| + |line| - 1] == (previous + line)[|previous| + |line| - 1];
    if previous != "" {
      assert input[|previous| - 1] == (previous + line)[|previous| - 1] == previous[|previous| - 1];
    }
  }

  /** The shape of one line appended to what was gathered: a buffered line holds
      no newline before its last character; a prompted line is the whole
      newline-free buffer followed by what was typed. */
  lemma AppendedLine(gathered: string, buffer: string, answer: PromptAnswer, lr: LineRead)
    requires lr == ReadLine(buffer, answer) && lr.result == PromptOk
    ensures !lr.prompted ==>
      '\n' in buffer && LastLine((gathered + lr.line) + lr.buffer, |gathered|, |gathered + lr.line|, 1)
    ensures lr.prompted ==>
      && '\n' !in buffer && lr.buffer == ""
      && LastLine((gathered + lr.line) + lr.buffer, |gathered|, |gathered + lr.line|, |Typed(answer)|)
  {
    var input := (gathered + lr.line) + lr.buffer;
    if !lr.prompted {
      assert input[|gathered|..|gathered + lr.line| - 1] == lr.line[..|lr.line| - 1];
    } else {
      assert lr.line == buffer + Typed(answer);
      assert input[|gathered|..|gathered + lr.line| - |Typed(answer)|] == buffer;
    }
  }

  /** The line of `input` read from `start` to `end` holds no newline before its
      last `typed` characters, which are what a prompt contributed (for a line
      read from the buffer, `typed` is 1: the newline that ends it). */
  predicate LastLine(input: string, start: nat, end: nat, typed: nat)
  {
    start + typed <= end <= |input| && '\n' !in input[start..end - typed]
  }

  /** What was gathered when a prompt is cancelled: whole lines, fewer than `n`
      characters (or none), with the buffer as the rest of the input. */
  lemma GatheredBeforeCancel(buffer0: string, answers: nat -> PromptAnswer, prompts: nat,
                              gathered: string, buffer: string, n: nat)
    requires prompts > 0
    requires gathered + buffer == buffer0 + TypedPrefix(answers, prompts - 1)
    requires gathered == "" || (|gathered| < n && EndsLine(gathered))
    ensures var input := buffer0 + TypedPrefix(answers, prompts - 1);
      var g := |input| - |buffer|;
      && |buffer| <= |input| && input[g..] == buffer && LineBoundary(input, g) && (g == 0 || g < n)
  {
    var input := buffer0 + TypedPrefix(answers, prompts - 1);
    assert input[..|gathered|] == gathered;
    if gathered != "" {
      assert input[|gathered| - 1] == gathered[|gathered| - 1];
    }
  }

  datatype ReadResult = Text(text: string) | Interrupted

  /** One turn of the read loop: reads a line (from the buffer, or by prompting
      with the console's `prompts`-th answer) and appends it to what was gathered.
      A cancelled prompt reports `cancelled`; otherwise no input is lost, the
      gathered text grows by one whole line, and the measure buffer-minus-gathered
      shrinks. */
  method GatherLine(buffer0: string, answers: nat -> PromptAnswer, gathered: string, buffer: string, prompts: nat)
    returns (cancelled: bool, gathered': string, buffer': string, prompts': nat)
    requires gathered + buffer == buffer0 + TypedPrefix(answers, prompts)
    requires gathered == "" || EndsLine(gathered)
    requires forall i :: 0 <= i < prompts ==> answers(i).Answered?
    ensures !cancelled ==> forall i :: 0 <= i < prompts' ==> answers(i).Answered?
    ensures cancelled <==> answers(prompts).NotAnswered? && '\n' !in buffer
    ensures !cancelled ==>
      && gathered' + buffer' == buffer0 + TypedPrefix(answers, prompts')
      && |gathered| < |gathered'| && EndsLine(gathered')
      && LineBoundary(gathered' + buffer', |gathered|) && LineBoundary(gathered' + buffer', |gathered'|)
      && |buffer'| + |gathered| < |buffer| + |gathered'|
      && (prompts' == prompts || (prompts' == prompts + 1 && answers(prompts).Answered?))
    ensures cancelled ==> gathered' == gathered && buffer' == buffer && prompts' == prompts
    ensures !cancelled && prompts' == prompts ==>
      '\n' in buffer && LastLine(gathered' + buffer', |gathered|, |gathered'|, 1)
    ensures !cancelled && prompts' == prompts + 1 ==>
      && '\n' !in buffer && buffer' == ""
      && LastLine(gathered' + buffer', |gathered|, |gathered'|, |Typed(answers(prompts))|)
  {
    var lr := ReadLine(buffer, answers(prompts));
    ReadLineConserves(buffer, answers(prompts));
    cancelled := lr.result == Cancel;
    if cancelled {
      gathered', buffer', prompts' := gathered, buffer, prompts;
      return;
    }
    prompts' := if lr.prompted then prompts + 1 else prompts;
    LineGathered(buffer0, answers, gathered, buffer, prompts, lr);
    AppendedLine(gathered, buffer, answers(prompts), lr);
    gathered' := gathered + lr.line;
    buffer' := lr.buffer;
  }

  /** A successful line read, appended to what was gathered, keeps the input
      conserved and line-aligned and makes progress. */
  lemma LineGathered(buffer0: string, answers: nat -> PromptAnswer, gathered: string, buffer: string,
                     prompts: nat, lr: LineRead)
    requires gathered + buffer == buffer0 + TypedPrefix(answers, prompts)
    requires gathered == "" || EndsLine(gathered)
    requires lr == ReadLine(buffer, answers(prompts)) && lr.result == PromptOk
    ensures var prompts' := if lr.prompted then prompts + 1 else prompts;
      && (gathered + lr.line) + lr.buffer == buffer0 + TypedPrefix(answers, prompts')
      && |gathered| < |gathered + lr.line| && EndsLine(gathered + lr.line)
      && LineBoundary((gathered + lr.line) + lr.buffer, |gathered|)
      && LineBoundary((gathered + lr.line) + lr.buffer, |gathered + lr.line|)
      && |lr.buffer| + |gathered| < |buffer| + |gathered + lr.line|
      && (lr.prompted ==> answers(prompts).Answered?)
  {
    ReadLineConserves(buffer, answers(prompts));
    GatherStep(buffer0, gathered, buffer, answers, prompts, lr.line, lr.buffer, lr.prompted);
    LineProgress(buffer, answers(prompts), lr);
    var prompts' := if lr.prompted then prompts + 1 else prompts;
    LineAligned(gathered, lr.line, lr.buffer, buffer0 + TypedPrefix(answers, prompts'));
    EndsLineAppend(gathered, lr.line);
  }

  /** `sys.stdin.read(n)`: reads lines (from the buffer first, then from the
      prompt, whose `i`-th answer is `answers(i)`) until at least `n` characters are
      gathered, returns the first `n` and puts the rest back in front of the buffer;
      a cancelled prompt raises a keyboard interrupt and drops what was gathered.
      On success, `consumed` characters of the input were gathered in whole lines,
      and the last line read started at `before`, while fewer than `n` characters
      were gathered (or nothing at all): reading stops at the first line that
      reaches `n`. */
  /** Once enough is gathered: the first `n` characters are the result and the
      rest goes back in front of the buffer, losing nothing; the line facts about
      what was gathered hold of the input. */
  method FinishRead(buffer0: string, answers: nat -> PromptAnswer, n: nat, gathered: string, buffer: string,
                    prompts: nat, before: nat, tail: nat)
    returns (r: ReadResult, buffer': string, consumed: nat)
    requires gathered + buffer == buffer0 + TypedPrefix(answers, prompts)
    requires n <= |gathered| && before < |gathered|
    requires LineBoundary(gathered + buffer, before) && LineBoundary(gathered + buffer, |gathered|)
    requires LastLine(gathered + buffer, before, |gathered|, tail)
    requires prompts > 0 ==> buffer == ""
    ensures r.Text? && |r.text| == n && r.text + buffer' == buffer0 + TypedPrefix(answers, prompts)
    ensures consumed == |gathered|
    ensures LineBoundary(buffer0 + TypedPrefix(answers, prompts), before)
    ensures LineBoundary(buffer0 + TypedPrefix(answers, prompts), consumed)
    ensures LastLine(buffer0 + TypedPrefix(answers, prompts), before, consumed, tail)
    ensures prompts > 0 ==> consumed == |buffer0 + TypedPrefix(answers, prompts)|
  {
    SplitGathered(gathered, buffer, n);
    consumed := |gathered|;
    r := Text(gathered[..n]);
    buffer' := if |gathered| > n then gathered[n..] + buffer else buffer;
  }

  method StdinRead(buffer0: string, answers: nat -> PromptAnswer, n: nat)
    returns (r: ReadResult, buffer: string, prompts: nat, before: nat, consumed: nat, tail: nat)
    ensures r.Text? ==> |r.text| == n && r.text + buffer == buffer0 + TypedPrefix(answers, prompts)
    ensures r.Text? ==> forall i :: 0 <= i < prompts ==> answers(i).Answered?
    ensures r.Text? ==> (before < n || before == 0) && before < consumed && n <= consumed
    ensures r.Text? ==> LineBoundary(buffer0 + TypedPrefix(answers, prompts), before)
    ensures r.Text? ==> LineBoundary(buffer0 + TypedPrefix(answers, prompts), consumed)
    ensures r.Text? ==> LastLine(buffer0 + TypedPrefix(answers, prompts), before, consumed, tail)
    ensures r.Text? && prompts == 0 ==> tail == 1
    ensures r.Text? && prompts > 0 ==>
      consumed == |buffer0 + TypedPrefix(answers, prompts)| && tail == |Typed(answers(prompts - 1))|
    ensures r.Interrupted? ==> prompts > 0 && answers(prompts - 1).NotAnswered? && '\n' !in buffer
    ensures r.Interrupted? && prompts > 1 ==> buffer == ""
    ensures r.Interrupted? ==>
      var input := buffer0 + TypedPrefix(answers, prompts - 1);
      var g := |input| - |buffer|;
      && |buffer| <= |input| && input[g..] == buffer && LineBoundary(input, g) && (g == 0 || g < n)
    ensures r.Interrupted? ==> forall i :: 0 <= i < prompts - 1 ==> answers(i).Answered?
  {
    var gathered := "";
    buffer := buffer0;
    prompts := 0;
    before := 0;
    consumed := 0;
    tail := 1;
    while true
      invariant gathered + buffer == buffer0 + TypedPrefix(answers, prompts)
      invariant forall i :: 0 <= i < prompts ==> answers(i).Answered?
      invariant gathered == "" || (|gathered| < n && EndsLine(gathered))
      invariant prompts > 0 ==> buffer == ""
      decreases n + |buffer| + 1 - |gathered|
    {
      var cancelled, g, b, p := GatherLine(buffer0, answers, gathered, buffer, prompts);
      var asked := prompts;
      if cancelled {
        r := Interrupted;
        prompts := asked + 1;
        GatheredBeforeCancel(buffer0, answers, prompts, gathered, buffer, n);
        return;
      }
      before := |gathered|;
      gathered, buffer, prompts := g, b, p;
      if |gathered| >= n {
        tail := if prompts > asked then |Typed(answers(asked))| else 1;
        r, buffer, consumed := FinishRead(buffer0, answers, n, gathered, buffer, prompts, before, tail);
        return;
      }
    }
  }
}

=== FILE: replica_admission.dfy ===
/** `Cluster.addReplicaInstance()` end to end: the ordered validation phase, then
    provisioning, where every remote change registers its reversal in the undo
    ledger before the next step runs. Remote effects are inputs; the result is a
    report of what was committed, configured and left for unwinding. */
module ReplicaAdmission {
  import opened Common
  import opened UndoLedger
  import opened ReplicaChecks

  /** The operation's options. `recoveryMethod` is `None` when the caller left it
      unset; `sources` is the explicit list when `sourceType` is a list. */
  datatype Options = Options(
    sourceType: Option<SourceType>,
    sources: seq<SourceEntry>,
    recoveryMethod: Option<RecoveryMethod>,
    cloneDonor: Option<Address>,
    instanceLabel: Option<string>,
    dryRun: bool)

  /** The source reads the first entry of an explicit list without checking it is
      there, so a list must be non-empty. */
  predicate WellFormed(o: Options)
  {
    o.sourceType == Some(Custom) ==> |o.sources| > 0
  }

  /** The answers of the Cluster, the target and the collaborators during validation.
      - `configurationOk(usingClone)`: the instance configuration check, which is told
        whether clone recovery was requested;
      - `optionCheck(requested)`: the recovery-option check, `None` when it rejects,
        otherwise the method it settles on;
      - `donorReachable`: whether connecting to an explicit clone donor works;
      - `donorCompatible`: the clone-donor compatibility check;
      - `recoveryVerdict(donor, chosen)`: the transaction-state check, `None` when it
        rejects, otherwise the recovery method to use. */
  datatype Cluster = Cluster(
    versionsSupported: bool,
    membership: Membership,
    configurationOk: bool -> bool,
    optionCheck: Option<RecoveryMethod> -> Option<RecoveryMethod>,
    sslMode: SslMode,
    authType: AuthType,
    activeCount: nat,
    primary: Address,
    probe: Address -> SourceProbe,
    donorReachable: Address -> bool,
    donorCompatible: Address -> bool,
    recoveryVerdict: (Address, RecoveryMethod) -> Option<RecoveryMethod>)

  /** What validation settles: the resolved source policy, the donor and the
      recovery method provisioning uses. */
  datatype Plan = Plan(sourceType: SourceType, donor: Address, recovery: RecoveryMethod)

  // ---------------------------------------------------------------------------
  // Validation

  /** The donor: the main source, replaced by the explicit clone donor only when the
      recovery method is clone and a donor was given. Whichever it is must pass the
      compatibility check. */
  function ChooseDonor(o: Options, c: Cluster, t: SourceType, chosen: RecoveryMethod): (r: Result<Address, AdminError>)
    requires t == Custom ==> |o.sources| > 0
    ensures r.Ok? ==> MainSource(t, c.primary, o.sources, c.probe).Ok? && c.donorCompatible(r.value)
    ensures r.Ok? && chosen == Clone && o.cloneDonor.Some? ==> r.value == o.cloneDonor.value
    ensures r.Ok? && !(chosen == Clone && o.cloneDonor.Some?) ==>
      r.value == MainSource(t, c.primary, o.sources, c.probe).value
  {
    match MainSource(t, c.primary, o.sources, c.probe)
    case Err(e) => Err(e)
    case Ok(main) =>
      var overridden := chosen == Clone && o.cloneDonor.Some?;
      if overridden && !c.donorReachable(o.cloneDonor.value) then Err(Collaborator(DonorConnect))
      else
        var donor := if overridden then o.cloneDonor.value else main;
        if !c.donorCompatible(donor) then Err(Collaborator(DonorCompatibility))
        else Ok(donor)
  }

  /** The validation phase, failing fast in the order of the source. */
  function Validate(o: Options, c: Cluster): (r: Result<Plan, AdminError>)
    requires WellFormed(o)
    ensures r.Ok? ==>
      && c.versionsSupported
      && CheckStandalone(c.membership).Pass?
      && c.configurationOk(o.recoveryMethod == Some(Clone))
      && c.optionCheck(o.recoveryMethod).Some?
      && CheckSslMode(c.sslMode).Pass?
      && CheckAuthType(c.authType).Pass?
      && CheckSourceType(o.sourceType, c.activeCount) == Ok(r.value.sourceType)
      && ChooseDonor(o, c, r.value.sourceType, c.optionCheck(o.recoveryMethod).value) == Ok(r.value.donor)
      && c.recoveryVerdict(r.value.donor, c.optionCheck(o.recoveryMethod).value) == Some(r.value.recovery)
  {
    if !c.versionsSupported then Err(Collaborator(VersionCheck))
    else match CheckStandalone(c.membership)
    case Fail(e) => Err(e)
    case Pass =>
      if !c.configurationOk(o.recoveryMethod == Some(Clone)) then Err(Collaborator(ConfigurationCheck))
      else match c.optionCheck(o.recoveryMethod)
      case None => Err(Collaborator(CloneOptionsCheck))
      case Some(chosen) =>
        match CheckSslMode(c.sslMode)
        case Fail(e) => Err(e)
        case Pass =>
          match CheckAuthType(c.authType)
          case Fail(e) => Err(e)
          case Pass =>
            match CheckSourceType(o.sourceType, c.activeCount)
            case Err(e) => Err(e)
            case Ok(t) =>
              match ChooseDonor(o, c, t, chosen)
              case Err(e) => Err(e)
              case Ok(donor) =>
                match c.recoveryVerdict(donor, chosen)
                case None => Err(Collaborator(RecoveryCheck))
                case Some(m) => Ok(Plan(t, donor, m))
  }

  /** The verdict of every validation stage evaluated on its own, in the order the
      source runs them. Stages that depend on an earlier result use a placeholder
      when that result is missing; such a stage is never reached. */
  function StageVerdicts(o: Options, c: Cluster): (vs: seq<Outcome<AdminError>>)
    requires WellFormed(o)
    ensures |vs| == 9
  {
    var chosen := if c.optionCheck(o.recoveryMethod).Some? then c.optionCheck(o.recoveryMethod).value else Auto;
    var t := if CheckSourceType(o.sourceType, c.activeCount).Ok? then CheckSourceType(o.sourceType, c.activeCount).value else Primary;
    var donor := ChooseDonor(o, c, t, chosen);
    [ if c.versionsSupported then Pass else Fail(Collaborator(VersionCheck)),
      CheckStandalone(c.membership),
      if c.configurationOk(o.recoveryMethod == Some(Clone)) then Pass else Fail(Collaborator(ConfigurationCheck)),
      if c.optionCheck(o.recoveryMethod).Some? then Pass else Fail(Collaborator(CloneOptionsCheck)),
      CheckSslMode(c.sslMode),
      CheckAuthType(c.authType),
      if CheckSourceType(o.sourceType, c.activeCount).Ok? then Pass else Fail(CheckSourceType(o.sourceType, c.activeCount).error),
      if donor.Ok? then Pass else Fail(donor.error),
      if donor.Err? || c.recoveryVerdict(donor.value, chosen).Some? then Pass else Fail(Collaborator(RecoveryCheck)) ]
  }

  /** Stage `i` is the first failing one. */
  predicate FirstFailingStage(vs: seq<Outcome<AdminError>>, i: int)
  {
    0 <= i < |vs| && vs[i].Fail? && forall j :: 0 <= j < i ==> vs[j].Pass?
  }

  /** Validation fails exactly when some stage fails, and then with the error of the
      first failing stage: no later check can mask an earlier one. */
  lemma ValidationOrder(o: Options, c: Cluster)
    requires WellFormed(o)
    ensures Validate(o, c).Ok? <==> forall i :: 0 <= i < 9 ==> StageVerdicts(o, c)[i].Pass?
    ensures forall i :: FirstFailingStage(StageVerdicts(o, c), i) ==>
      Validate(o, c) == Err(StageVerdicts(o, c)[i].error)
  {
    var vs := StageVerdicts(o, c);
    if forall i :: 0 <= i < 9 ==> vs[i].Pass? {
      assert vs[0].Pass? && vs[1].Pass? && vs[2].Pass? && vs[3].Pass? && vs[4].Pass?;
      assert vs[5].Pass? && vs[6].Pass? && vs[7].Pass? && vs[8].Pass?;
    }
    if Validate(o, c).Ok? {
      assert vs[0].Pass? && vs[1].Pass? && vs[2].Pass? && vs[3].Pass? && vs[4].Pass?;
      assert vs[5].Pass? && vs[6].Pass? && vs[7].Pass? && vs[8].Pass?;
    }
    forall i | FirstFailingStage(vs, i)
      ensures Validate(o, c) == Err(vs[i].error)
    {
      assert i == 0 || vs[0].Pass?;
      assert i <= 1 || vs[1].Pass?;
      assert i <= 2 || vs[2].Pass?;
      assert i <= 3 || vs[3].Pass?;
      assert i <= 4 || vs[4].Pass?;
      assert i <= 5 || vs[5].Pass?;
      assert i <= 6 || vs[6].Pass?;
      assert i <= 7 || vs[7].Pass?;
    }
  }

  /** The explicit clone donor is used only with clone recovery; otherwise the main
      source stays the donor even when a clone donor was given. */
  lemma DonorSelection(o: Options, c: Cluster)
    requires WellFormed(o) && Validate(o, c).Ok?
    ensures var chosen := c.optionCheck(o.recoveryMethod).value;
      var main := MainSource(Validate(o, c).value.sourceType, c.primary, o.sources, c.probe);
      && main.Ok?
      && Validate(o, c).value.donor == (if chosen == Clone && o.cloneDonor.Some? then o.cloneDonor.value else main.value)
      && c.donorCompatible(Validate(o, c).value.donor)
  {
  }

  // ---------------------------------------------------------------------------
  // Provisioning

  datatype Account = Account(user: string, host: string)

  datatype SyncResult = Synced | TimedOut | SyncCancelledByUser | SyncFailed

  /** The answers of the remote steps after validation.
      - `account`: the created replication account, `None` when creation fails;
      - `cloneSucceeds`: clone provisioning finishes;
      - `clusterSetChannelReset`: the ClusterSet channel copied by clone is removed;
      - `joinTime`: the target's clock, `None` when the query fails;
      - `memberWritesOk`: the metadata row, join time and account are stored;
      - `canonical`: the canonical address of a list entry on reconnection;
      - `sourcesWriteOk` and `commitOk`: the sources attribute and the commit;
      - `channelSetUp`: the managed replication channel is configured;
      - `sync`: how waiting for the target to catch up ends. */
  datatype Effects = Effects(
    account: Option<Account>,
    cloneSucceeds: bool,
    clusterSetChannelReset: bool,
    joinTime: Option<string>,
    memberWritesOk: bool,
    canonical: Address -> Option<Address>,
    sourcesWriteOk: bool,
    commitOk: bool,
    channelSetUp: bool,
    sync: SyncResult)

  /** The stored `replicationSources` attribute: a policy marker or the canonical
      addresses of the list. */
  datatype SourcesValue = Marker(name: string) | AddressList(addresses: seq<Address>)

  datatype MetadataWrite =
    | InsertReadReplica(instanceLabel: string)
    | SetJoinTime(time: string)
    | SetReplicationAccount(user: string, host: string)
    | SetReplicationSources(value: SourcesValue)

  /** What unwinding does for each registered entry. */
  datatype Compensation =
    | DropReplicationAccount
    | DropClonedMetadataSchema
    | RevertMetadata(writes: seq<MetadataWrite>)
    | RemoveReplicaChannel

  /** The replication channel as configured: the policy and the list it was given. */
  datatype Channel = Channel(sourceType: SourceType, sources: seq<SourceEntry>)

  datatype Warning = SyncTimeoutWarning

  datatype Report = Report(
    outcome: Outcome<AdminError>,
    ledger: Ledger<Compensation>,
    committed: seq<MetadataWrite>,
    channel: Option<Channel>,
    warnings: seq<Warning>)

  function Stopped(e: AdminError, l: Ledger<Compensation>, committed: seq<MetadataWrite>): Report
  {
    Report(Fail(e), l, committed, None, [])
  }

  /** Reconnects to every list entry in order and collects the canonical addresses;
      an entry whose canonical address differs is replaced by that address with the
      same weight. Fails at the first entry that cannot be reached. */
  function CanonicalSources(sources: seq<SourceEntry>, canonical: Address -> Option<Address>)
    : (r: Result<(seq<Address>, seq<SourceEntry>), AdminError>)
    ensures r.Ok? <==> forall i :: 0 <= i < |sources| ==> canonical(sources[i].address).Some?
    ensures r.Ok? ==>
      && |r.value.0| == |sources| && |r.value.1| == |sources|
      && forall i :: 0 <= i < |sources| ==>
           && canonical(sources[i].address) == Some(r.value.0[i])
           && r.value.1[i] == SourceEntry(r.value.0[i], sources[i].weight)
    ensures r.Err? ==> exists i :: (0 <= i < |sources| && canonical(sources[i].address).None? &&
                                     r.error == SourceUnreachable(sources[i].address) &&
                                     forall j :: 0 <= j < i ==> canonical(sources[j].address).Some?)
  {
    if sources == [] then Ok(([], []))
    else match canonical(sources[0].address)
      case None => Err(SourceUnreachable(sources[0].address))
      case Some(a) =>
        match CanonicalSources(sources[1..], canonical)
        case Err(e) =>
          assert forall j :: 1 <= j < |sources| ==> sources[j] == sources[1..][j - 1];
          Err(e)
        case Ok(rest) =>
          var entry := if a != sources[0].address then SourceEntry(a, sources[0].weight) else sources[0];
          Ok(([a] + rest.0, [entry] + rest.1))
  }

  /** The `replicationSources` attribute to store and the list the channel is given. */
  function SourcesMetadata(t: SourceType, sources: seq<SourceEntry>, canonical: Address -> Option<Address>)
    : (r: Result<(SourcesValue, seq<SourceEntry>), AdminError>)
    ensures t == Primary ==> r == Ok((Marker("PRIMARY"), sources))
    ensures t == Secondary ==> r == Ok((Marker("SECONDARY"), sources))
    ensures t == Custom ==> r.Ok? == CanonicalSources(sources, canonical).Ok?
    ensures t == Custom && r.Ok? ==>
      r.value == (AddressList(CanonicalSources(sources, canonical).value.0), CanonicalSources(sources, canonical).value.1)
  {
    match t
    case Primary => Ok((Marker("PRIMARY"), sources))
    case Secondary => Ok((Marker("SECONDARY"), sources))
    case Custom =>
      match CanonicalSources(sources, canonical)
      case Err(e) => Err(e)
      case Ok(p) => Ok((AddressList(p.0), p.1))
  }

  /** The metadata transaction: the four writes are committed together or not at
      all, and the last one stores the sources attribute. */
  function MetadataTransaction(o: Options, p: Plan, fx: Effects, acct: Account, time: string)
    : (r: Result<(seq<MetadataWrite>, seq<SourceEntry>), AdminError>)
    ensures r.Ok? <==>
      fx.memberWritesOk && SourcesMetadata(p.sourceType, o.sources, fx.canonical).Ok? && fx.sourcesWriteOk && fx.commitOk
    ensures r.Ok? ==>
      && |r.value.0| == 4
      && r.value.0[3] == SetReplicationSources(SourcesMetadata(p.sourceType, o.sources, fx.canonical).value.0)
      && r.value.1 == SourcesMetadata(p.sourceType, o.sources, fx.canonical).value.1
  {
    if !fx.memberWritesOk then Err(Collaborator(MetadataUpdate))
    else match SourcesMetadata(p.sourceType, o.sources, fx.canonical)
      case Err(e) => Err(e)
      case Ok(s) =>
        if !fx.sourcesWriteOk || !fx.commitOk then Err(Collaborator(MetadataUpdate))
        else
          var tag := if o.instanceLabel.Some? then o.instanceLabel.value else "";
          Ok(([InsertReadReplica(tag), SetJoinTime(time), SetReplicationAccount(acct.user, acct.host),
               SetReplicationSources(s.0)], s.1))
  }

  /** Channel setup, its deferred removal, and synchronization (skipped in a dry run).
      A sync timeout adds a warning and still fails the operation. */
  function Activate(o: Options, p: Plan, fx: Effects, l: Ledger<Compensation>,
                    committed: seq<MetadataWrite>, channelSources: seq<SourceEntry>): Report
  {
    if !fx.channelSetUp then Stopped(Collaborator(ChannelSetup), l, committed)
    else
      var l' := AddBack(l, "Removing Read-Replica replication channel", RemoveReplicaChannel).0;
      var ch := Some(Channel(p.sourceType, channelSources));
      if o.dryRun then Report(Pass, l', committed, ch, [])
      else match fx.sync
        case Synced => Report(Pass, l', committed, ch, [])
        case TimedOut => Report(Fail(SyncTimeout), l', committed, ch, [SyncTimeoutWarning])
        case SyncCancelledByUser => Report(Fail(SyncCancelled), l', committed, ch, [])
        case SyncFailed => Report(Fail(Collaborator(Synchronization)), l', committed, ch, [])
  }

  /** From the join-time query on: the metadata transaction (skipped in a dry run),
      whose reversal is registered only after the commit, then the channel. */
  function AfterProvisioning(o: Options, p: Plan, fx: Effects, acct: Account, l: Ledger<Compensation>): Report
  {
    match fx.joinTime
    case None => Stopped(Collaborator(JoinTimeQuery), l, [])
    case Some(time) =>
      if o.dryRun then Activate(o, p, fx, l, [], o.sources)
      else match MetadataTransaction(o, p, fx, acct, time)
        case Err(e) => Stopped(e, l, [])
        case Ok(tx) =>
          var l' := Add(l, "Removing Read-Replica's metadata", RevertMetadata(tx.0)).0;
          Activate(o, p, fx, l', tx.0, tx.1)
  }

  /** Provisioning after a successful validation. The replication account's removal
      is registered as soon as it exists. With clone recovery, the removal of a
      half-cloned metadata schema is registered in the deferred group before cloning
      and cancelled once cloning succeeds. */
  function Provision(o: Options, p: Plan, fx: Effects): Report
  {
    match fx.account
    case None => Stopped(Collaborator(ReplicationAccount), Empty(), [])
    case Some(acct) =>
      var l1 := Add(Empty(), "Dropping replication account", DropReplicationAccount).0;
      if p.recovery == Clone then
        var (l2, cleanup) := AddBack(l1, "Dropping Metadata schema from Read-Replica", DropClonedMetadataSchema);
        if !fx.cloneSucceeds then Stopped(Collaborator(CloneProvisioning), l2, [])
        else
          var l3 := Cancel(l2, cleanup);
          if !fx.clusterSetChannelReset then Stopped(Collaborator(ClusterSetChannelReset), l3, [])
          else AfterProvisioning(o, p, fx, acct, l3)
      else AfterProvisioning(o, p, fx, acct, l1)
  }

  /** The whole operation. A validation failure changes nothing. */
  function AddReplicaInstance(o: Options, c: Cluster, fx: Effects): (r: Report)
    requires WellFormed(o)
    ensures Validate(o, c).Err? ==> r == Report(Fail(Validate(o, c).error), Empty(), [], None, [])
    ensures r.outcome.Pass? ==> Validate(o, c).Ok? && r.channel.Some? && fx.account.Some?
  {
    match Validate(o, c)
    case Err(e) => Stopped(e, Empty(), [])
    case Ok(p) => Provision(o, p, fx)
  }

  // ---------------------------------------------------------------------------
  // Properties of the whole operation

  /** Channel setup registers its removal behind everything else. */
  lemma ActivateEffect(o: Options, p: Plan, fx: Effects, l: Ledger<Compensation>,
                       committed: seq<MetadataWrite>, channelSources: seq<SourceEntry>)
    requires DeferredIdle(l)
    ensures var r := Activate(o, p, fx, l, committed, channelSources);
      && r.committed == committed
      && r.channel == (if fx.channelSetUp then Some(Channel(p.sourceType, channelSources)) else None)
      && UnwindActions(r.ledger) == UnwindActions(l) + (if fx.channelSetUp then [RemoveReplicaChannel] else [])
      && (r.warnings != [] <==> r.outcome == Fail(SyncTimeout))
      && (r.outcome == Fail(SyncTimeout) ==> !o.dryRun && r.warnings == [SyncTimeoutWarning])
  {
    AddBackRunsAfterNormal(l, "Removing Read-Replica replication channel", RemoveReplicaChannel);
  }

  lemma AfterProvisioningEffect(o: Options, p: Plan, fx: Effects, acct: Account, l: Ledger<Compensation>)
    requires DeferredIdle(l)
    ensures var r := AfterProvisioning(o, p, fx, acct, l);
      && (r.committed != [] ==>
            && !o.dryRun && fx.joinTime.Some?
            && MetadataTransaction(o, p, fx, acct, fx.joinTime.value).Ok?
            && r.committed == MetadataTransaction(o, p, fx, acct, fx.joinTime.value).value.0)
      && UnwindActions(r.ledger) ==
           (if r.committed != [] then [RevertMetadata(r.committed)] else [])
           + UnwindActions(l)
           + (if r.channel.Some? then [RemoveReplicaChannel] else [])
      && (r.warnings != [] <==> r.outcome == Fail(SyncTimeout))
      && (r.outcome == Fail(SyncTimeout) ==> r.warnings == [SyncTimeoutWarning] && r.channel.Some? && r.committed != [])
      && (r.channel.Some? ==>
            && fx.joinTime.Some?
            && r.channel.value.sourceType == p.sourceType
            && (o.dryRun ==> r.channel.value.sources == o.sources)
            && (!o.dryRun ==>
                  && MetadataTransaction(o, p, fx, acct, fx.joinTime.value).Ok?
                  && r.channel.value.sources == MetadataTransaction(o, p, fx, acct, fx.joinTime.value).value.1))
  {
    if fx.joinTime.Some? {
      var time := fx.joinTime.value;
      if o.dryRun {
        ActivateEffect(o, p, fx, l, [], o.sources);
      } else if MetadataTransaction(o, p, fx, acct, time).Ok? {
        var tx := MetadataTransaction(o, p, fx, acct, time).value;
        var l' := Add(l, "Removing Read-Replica's metadata", RevertMetadata(tx.0)).0;
        AddRunsFirst(l, "Removing Read-Replica's metadata", RevertMetadata(tx.0));
        ActivateEffect(o, p, fx, l', tx.0, tx.1);
      }
    }
  }

  /** Provisioning as a whole, in terms of the validated plan. */
  lemma ProvisionEffect(o: Options, p: Plan, fx: Effects)
    ensures var r := Provision(o, p, fx);
      fx.account.None? ==> UnwindActions(r.ledger) == [] && r.committed == [] && r.channel.None?
    ensures var r := Provision(o, p, fx);
      fx.account.Some? && p.recovery == Clone && !fx.cloneSucceeds ==>
        && UnwindActions(r.ledger) == [DropReplicationAccount, DropClonedMetadataSchema]
        && r.committed == [] && r.channel.None?
    ensures var r := Provision(o, p, fx);
      fx.account.Some? && !(p.recovery == Clone && !fx.cloneSucceeds) ==>
        UnwindActions(r.ledger) ==
          (if r.committed != [] then [RevertMetadata(r.committed)] else [])
          + [DropReplicationAccount]
          + (if r.channel.Some? then [RemoveReplicaChannel] else [])
    ensures var r := Provision(o, p, fx);
      && (r.warnings != [] <==> r.outcome == Fail(SyncTimeout))
      && (r.outcome == Fail(SyncTimeout) ==> r.warnings == [SyncTimeoutWarning] && r.channel.Some? && r.committed != [])
    ensures var r := Provision(o, p, fx);
      r.committed != [] ==>
        && !o.dryRun && fx.account.Some? && fx.joinTime.Some?
        && MetadataTransaction(o, p, fx, fx.account.value, fx.joinTime.value).Ok?
        && r.committed == MetadataTransaction(o, p, fx, fx.account.value, fx.joinTime.value).value.0
    ensures var r := Provision(o, p, fx);
      r.channel.Some? ==>
        && fx.account.Some? && fx.joinTime.Some?
        && r.channel.value.sourceType == p.sourceType
        && (o.dryRun ==> r.channel.value.sources == o.sources)
        && (!o.dryRun ==>
              && MetadataTransaction(o, p, fx, fx.account.value, fx.joinTime.value).Ok?
              && r.channel.value.sources == MetadataTransaction(o, p, fx, fx.account.value, fx.joinTime.value).value.1)
  {
    if fx.account.Some? {
      var acct := fx.account.value;
      var l1 := Add(Empty(), "Dropping replication account", DropReplicationAccount).0;
      assert l1 == Ledger([Entry("Dropping replication account", DropReplicationAccount, false)], []);
      assert LiveActionsNewestFirst(l1.front, 1) == [DropReplicationAccount] + LiveActionsNewestFirst(l1.front, 0);
      assert UnwindActions(l1) == [DropReplicationAccount];
      if p.recovery == Clone {
        var (l2, cleanup) := AddBack(l1, "Dropping Metadata schema from Read-Replica", DropClonedMetadataSchema);
        var cleanupEntry := Entry("Dropping Metadata schema from Read-Replica", DropClonedMetadataSchema, false);
        assert l2 == Ledger(l1.front, [cleanupEntry]);
        if !fx.cloneSucceeds {
          assert LiveActionsNewestFirst(l2.back, 1) == [DropClonedMetadataSchema] + LiveActionsNewestFirst(l2.back, 0);
          assert UnwindActions(l2) == [DropReplicationAccount, DropClonedMetadataSchema];
        } else {
          var l3 := Cancel(l2, cleanup);
          assert l3 == Ledger(l1.front, [cleanupEntry.(cancelled := true)]);
          assert LiveActionsNewestFirst(l3.back, 1) == [] + LiveActionsNewestFirst(l3.back, 0);
          assert UnwindActions(l3) == [DropReplicationAccount];
          if fx.clusterSetChannelReset {
            AfterProvisioningEffect(o, p, fx, acct, l3);
          }
        }
      } else {
        AfterProvisioningEffect(o, p, fx, acct, l1);
      }
    }
  }

  /** Whether clone provisioning was started and failed. */
  predicate CloneAborted(o: Options, c: Cluster, fx: Effects)
    requires WellFormed(o)
  {
    Validate(o, c).Ok? && fx.account.Some? && Validate(o, c).value.recovery == Clone && !fx.cloneSucceeds
  }

  /** What unwinding would do after the operation, in order. Nothing before the
      account exists; after a failed clone, the account and then the half-cloned
      schema; otherwise the metadata reversal (only if committed) first, then the
      account, then the channel (only if configured) last. The clone cleanup never
      runs once cloning succeeded. */
  lemma UnwindPlan(o: Options, c: Cluster, fx: Effects)
    requires WellFormed(o)
    ensures var r := AddReplicaInstance(o, c, fx);
      Validate(o, c).Err? || fx.account.None? ==> UnwindActions(r.ledger) == []
    ensures var r := AddReplicaInstance(o, c, fx);
      CloneAborted(o, c, fx) ==>
        UnwindActions(r.ledger) == [DropReplicationAccount, DropClonedMetadataSchema]
    ensures var r := AddReplicaInstance(o, c, fx);
      Validate(o, c).Ok? && fx.account.Some? && !CloneAborted(o, c, fx) ==>
        UnwindActions(r.ledger) ==
          (if r.committed != [] then [RevertMetadata(r.committed)] else [])
          + [DropReplicationAccount]
          + (if r.channel.Some? then [RemoveReplicaChannel] else [])
  {
    if Validate(o, c).Ok? {
      ProvisionEffect(o, Validate(o, c).value, fx);
    } else {
      assert UnwindActions(Empty<Compensation>()) == [];
    }
  }

  /** A dry run commits nothing, registers no metadata reversal and never waits for
      synchronization; its validation is the same as a real run's. */
  lemma DryRunWritesNothing(o: Options, c: Cluster, fx: Effects)
    requires WellFormed(o) && o.dryRun
    ensures var r := AddReplicaInstance(o, c, fx);
      && r.committed == []
      && (forall w :: RevertMetadata(w) !in UnwindActions(r.ledger))
      && r.outcome != Fail(SyncTimeout) && r.warnings == []
    ensures Validate(o, c) == Validate(o.(dryRun := false), c)
  {
    UnwindPlan(o, c, fx);
    if Validate(o, c).Ok? {
      ProvisionEffect(o, Validate(o, c).value, fx);
    }
    ValidateIgnoresDryRun(o, c);
  }

  /** Validation never reads the dry-run flag. */
  lemma ValidateIgnoresDryRun(o: Options, c: Cluster)
    requires WellFormed(o)
    ensures Validate(o, c) == Validate(o.(dryRun := false), c)
  {
  }

  /** The metadata reversal is registered exactly when the transaction committed, and
      the committed writes are the Read-Replica row with its label, the join time,
      the replication account and the sources attribute. */
  lemma CommittedMetadata(o: Options, c: Cluster, fx: Effects)
    requires WellFormed(o)
    ensures var r := AddReplicaInstance(o, c, fx);
      r.committed != [] ==>
        && !o.dryRun && Validate(o, c).Ok? && fx.account.Some? && fx.joinTime.Some?
        && r.committed == [InsertReadReplica(if o.instanceLabel.Some? then o.instanceLabel.value else ""),
                           SetJoinTime(fx.joinTime.value),
                           SetReplicationAccount(fx.account.value.user, fx.account.value.host),
                           SetReplicationSources(
                             SourcesMetadata(Validate(o, c).value.sourceType, o.sources, fx.canonical).value.0)]
    ensures var r := AddReplicaInstance(o, c, fx);
      (exists w :: RevertMetadata(w) in UnwindActions(r.ledger)) <==> r.committed != []
  {
    UnwindPlan(o, c, fx);
    var r := AddReplicaInstance(o, c, fx);
    if Validate(o, c).Ok? {
      ProvisionEffect(o, Validate(o, c).value, fx);
    }
    if r.committed != [] {
      assert RevertMetadata(r.committed) in UnwindActions(r.ledger);
    }
  }

  /** The channel gets the canonical list: in a real run with an explicit list, every
      entry is replaced by its canonical address with its weight unchanged; otherwise
      the list is passed on as given. */
  lemma ChannelSources(o: Options, c: Cluster, fx: Effects)
    requires WellFormed(o)
    ensures var r := AddReplicaInstance(o, c, fx);
      r.channel.Some? ==>
        && Validate(o, c).Ok?
        && r.channel.value.sourceType == Validate(o, c).value.sourceType
        && |r.channel.value.sources| == |o.sources|
        && forall i :: 0 <= i < |o.sources| ==>
             r.channel.value.sources[i].weight == o.sources[i].weight
             && (r.channel.value.sources[i].address == o.sources[i].address
                 || (!o.dryRun && r.channel.value.sourceType == Custom
                     && fx.canonical(o.sources[i].address) == Some(r.channel.value.sources[i].address)))
  {
    if Validate(o, c).Ok? {
      ProvisionEffect(o, Validate(o, c).value, fx);
    }
  }

  /** A sync timeout fails the whole operation after everything was set up: the
      warning is printed, the metadata and channel stay registered for unwinding. */
  lemma SyncTimeoutIsFatal(o: Options, c: Cluster, fx: Effects)
    requires WellFormed(o)
    ensures var r := AddReplicaInstance(o, c, fx);
      r.outcome == Fail(SyncTimeout) ==>
        && r.warnings == [SyncTimeoutWarning]
        && r.channel.Some? && r.committed != []
        && UnwindActions(r.ledger) == [RevertMetadata(r.committed), DropReplicationAccount, RemoveReplicaChannel]
    ensures var r := AddReplicaInstance(o, c, fx);
      r.warnings != [] ==> r.outcome == Fail(SyncTimeout)
  {
    UnwindPlan(o, c, fx);
    if Validate(o, c).Ok? {
      ProvisionEffect(o, Validate(o, c).value, fx);
    }
  }

  // ---------------------------------------------------------------------------
  // The clone cleanup action

  datatype CleanupStep = DisableSuperReadOnly | UninstallMetadata | EnableSuperReadOnly

  /** Runs the clone cleanup on a target whose `super_read_only` is `superReadOnly`;
      `failing` is the step that throws, if any. A failure is swallowed and ends the
      cleanup. Returns the steps that took effect and the final `super_read_only`. */
  function RunCloneCleanup(superReadOnly: bool, failing: Option<CleanupStep>): (r: (seq<CleanupStep>, bool))
    ensures EnableSuperReadOnly in r.0 ==> superReadOnly && DisableSuperReadOnly in r.0
    ensures (UninstallMetadata in r.0) <==>
      (failing != Some(UninstallMetadata) && (superReadOnly ==> failing != Some(DisableSuperReadOnly)))
    ensures (r.1 == superReadOnly) <==>
      (!superReadOnly || failing.None? || failing == Some(DisableSuperReadOnly))
  {
    match failing
    case None =>
      if superReadOnly then ([DisableSuperReadOnly, UninstallMetadata, EnableSuperReadOnly], true)
      else ([UninstallMetadata], false)
    case Some(DisableSuperReadOnly) =>
      if superReadOnly then ([], true) else ([UninstallMetadata], false)
    case Some(UninstallMetadata) =>
      if superReadOnly then ([DisableSuperReadOnly], false) else ([], false)
    case Some(EnableSuperReadOnly) =>
      if superReadOnly then ([DisableSuperReadOnly, UninstallMetadata], false)
      else ([UninstallMetadata], false)
  }
}

=== FILE: replica_checks.dfy ===
/** The individual admission checks of `Cluster.addReplicaInstance()`: the standalone
    decision, the TLS and authentication gates, the `replicationSources` policy and
    the choice of the main source (donor). Every remote query is an input. */
module ReplicaChecks {
  import opened Common

  type Address = string

  /** `replicationSources`: "primary", "secondary" or an explicit list. */
  datatype SourceType = Primary | Secondary | Custom

  /** One entry of an explicit `replicationSources` list. */
  datatype SourceEntry = SourceEntry(address: Address, weight: int)

  datatype RecoveryMethod = Auto | Incremental | Clone

  /** The Cluster's `group_replication_ssl_mode`, as the Cluster sees it. */
  datatype SslMode = SslAuto | SslNone | SslDisabled | SslRequired | VerifyCa | VerifyIdentity

  /** The Cluster's `memberAuthType`. */
  datatype AuthType = Password | CertIssuer | CertSubject | CertIssuerPassword | CertSubjectPassword

  /** The topology a target with a non-empty metadata schema claims to belong to. */
  datatype TopologyKind = InnoDBCluster | ReplicaSet | OtherTopology(name: string)

  /** What the target's own metadata says about it. */
  datatype StandaloneProbe = NoMetadata | Managed(kind: TopologyKind)

  /** How a reachable source is registered in the Cluster's metadata. */
  datatype InstanceType = GroupMember | ReadReplica

  datatype MemberState = Online | Recovering | Offline | ErrorState | Unreachable | Missing

  /** What connecting to one `replicationSources` entry reveals. `metadata` is `None`
      when the canonical address is not found in the Cluster's metadata. */
  datatype SourceProbe =
    | NotReachable
    | Reachable(canonical: Address, metadata: Option<InstanceType>, state: MemberState)

  /** The phase a collaborator failed in; these errors carry the collaborator's own code. */
  datatype Stage =
    | VersionCheck | ConfigurationCheck | CloneOptionsCheck | DonorConnect | DonorCompatibility
    | RecoveryCheck | ReplicationAccount | CloneProvisioning | ClusterSetChannelReset
    | JoinTimeQuery | MetadataUpdate | ChannelSetup | Synchronization

  /** Error codes the modelled code raises itself. */
  datatype ErrorCode =
    | BadArgInstanceManagedInCluster     // SHERR_DBA_BADARG_INSTANCE_MANAGED_IN_CLUSTER
    | SourceListUnreachable              // SHERR_DBA_READ_REPLICA_INVALID_SOURCE_LIST_UNREACHABLE
    | SourceListNotInMetadata            // SHERR_DBA_READ_REPLICA_INVALID_SOURCE_LIST_NOT_IN_MD
    | SourceListNotClusterMember         // SHERR_DBA_READ_REPLICA_INVALID_SOURCE_LIST_NOT_CLUSTER_MEMBER
    | SourceListNotOnline                // SHERR_DBA_READ_REPLICA_INVALID_SOURCE_LIST_NOT_ONLINE
    | GtidSyncTimeout                    // SHERR_DBA_GTID_SYNC_TIMEOUT
    | Runtime                            // a runtime error without a specific code
    | FromCollaborator                   // whatever the failing collaborator raised

  datatype AdminError =
    | AlreadyManaged(kind: TopologyKind)
    | SourceUnreachable(source: Address)
    | SourceNotInMetadata(source: Address)
    | SourceIsReadReplica(source: Address)
      /** `reported` is the source the operator-facing diagnostic names. */
    | SourceNotOnline(reported: Address)
    | NoOnlineSecondary
    | UnsupportedSslMode(mode: SslMode)
    | UnsupportedAuthType(auth: AuthType)
    | SyncTimeout
    | SyncCancelled
    | Collaborator(stage: Stage)

  function Code(e: AdminError): ErrorCode
  {
    match e
    case AlreadyManaged(_) => BadArgInstanceManagedInCluster
    case SourceUnreachable(_) => SourceListUnreachable
    case SourceNotInMetadata(_) => SourceListNotInMetadata
    case SourceIsReadReplica(_) => SourceListNotClusterMember
    case SourceNotOnline(_) => SourceListNotOnline
    case NoOnlineSecondary => SourceListNotOnline
    case UnsupportedSslMode(_) => Runtime
    case UnsupportedAuthType(_) => Runtime
    case SyncTimeout => GtidSyncTimeout
    case SyncCancelled => FromCollaborator
    case Collaborator(_) => FromCollaborator
  }

  // ---------------------------------------------------------------------------
  // Standalone check

  /** What the standalone check reads: the target's own metadata, this Cluster's
      membership queries and, for a ClusterSet, the ids of its member Clusters. */
  datatype Membership = Membership(
    probe: StandaloneProbe,
    inThisCluster: bool,
    clusterInClusterSet: bool,
    inClusterSet: bool,
    targetClusterId: Option<string>,
    clusterId: string,
    clusterSetId: Option<string>,
    clusterSetMemberIds: Option<seq<string>>)

  /** The target's own metadata names this Cluster, or a Cluster of this Cluster's
      ClusterSet: it was forcibly removed and may come back. */
  predicate RemovedFromThisTopology(m: Membership)
  {
    && m.targetClusterId.Some?
    && (|| m.targetClusterId.value == m.clusterId
        || (m.clusterSetId.Some? && m.clusterSetMemberIds.Some?
            && m.targetClusterId.value in m.clusterSetMemberIds.value))
  }

  /** Is the target standalone, or may it be re-admitted? */
  function CheckStandalone(m: Membership): (r: Outcome<AdminError>)
    ensures r.Fail? ==> m.probe.Managed? && r.error == AlreadyManaged(m.probe.kind)
    ensures r.Fail? ==> Code(r.error) == BadArgInstanceManagedInCluster
  {
    match m.probe
    case NoMetadata => Pass
    case Managed(kind) =>
      if kind != InnoDBCluster then Fail(AlreadyManaged(kind))
      else if m.inThisCluster then Fail(AlreadyManaged(kind))
      else if m.clusterInClusterSet && m.inClusterSet then Fail(AlreadyManaged(kind))
      else if m.targetClusterId.None? then Fail(AlreadyManaged(kind))
      else if m.targetClusterId.value == m.clusterId then Pass
      else if m.clusterSetId.Some? && m.clusterSetMemberIds.Some?
              && m.targetClusterId.value in m.clusterSetMemberIds.value then Pass
      else Fail(AlreadyManaged(kind))
  }

  /** The whole decision in one statement: a target is accepted exactly when its
      metadata is empty, or it claims an InnoDB Cluster, is a member neither of this
      Cluster nor of this ClusterSet, and its own metadata names this Cluster or one
      of its ClusterSet's Clusters. */
  lemma StandaloneDecision(m: Membership)
    ensures CheckStandalone(m).Pass? <==>
      (|| m.probe.NoMetadata?
       || (&& m.probe.kind == InnoDBCluster
           && !m.inThisCluster
           && !(m.clusterInClusterSet && m.inClusterSet)
           && RemovedFromThisTopology(m)))
  {
  }

  /** A member of this Cluster, or of a Cluster of the same ClusterSet, is refused
      even when its metadata would allow a re-add. */
  lemma MembersAreRefused(m: Membership)
    requires m.probe == Managed(InnoDBCluster)
    requires m.inThisCluster || (m.clusterInClusterSet && m.inClusterSet)
    ensures CheckStandalone(m) == Fail(AlreadyManaged(InnoDBCluster))
  {
  }

  // ---------------------------------------------------------------------------
  // TLS and authentication gates

  /** Read-Replicas cannot use certificate verification: VERIFY_CA and
      VERIFY_IDENTITY are refused. AUTO cannot reach this check; a release build
      accepts it. */
  function CheckSslMode(mode: SslMode): (r: Outcome<AdminError>)
    ensures r.Fail? <==> mode in {VerifyCa, VerifyIdentity}
    ensures r.Fail? ==> r.error == UnsupportedSslMode(mode) && Code(r.error) == Runtime
  {
    match mode
    case VerifyCa => Fail(UnsupportedSslMode(mode))
    case VerifyIdentity => Fail(UnsupportedSslMode(mode))
    case _ => Pass
  }

  function CheckAuthType(auth: AuthType): (r: Outcome<AdminError>)
    ensures r.Pass? <==> auth == Password
    ensures r.Fail? ==> r.error == UnsupportedAuthType(auth) && Code(r.error) == Runtime
  {
    if auth != Password then Fail(UnsupportedAuthType(auth)) else Pass
  }

  // ---------------------------------------------------------------------------
  // replicationSources policy

  /** Resolves an unset `replicationSources` to "primary" and refuses "secondary"
      when the Cluster has exactly one active member. */
  function CheckSourceType(requested: Option<SourceType>, activeCount: nat): (r: Result<SourceType, AdminError>)
    ensures requested.None? ==> r == Ok(Primary)
    ensures r.Ok? ==> requested.None? || r.value == requested.value
    ensures r.Err? <==> requested == Some(Secondary) && activeCount == 1
    ensures r.Err? ==> r.error == NoOnlineSecondary && Code(r.error) == SourceListNotOnline
  {
    var t := if requested.None? then Primary else requested.value;
    if t == Secondary && activeCount == 1 then Err(NoOnlineSecondary) else Ok(t)
  }

  /** Why a single list entry cannot be a source. */
  datatype SourceFault = FaultUnreachable | FaultNotInMetadata | FaultReadReplica | FaultNotOnline

  /** Whether the check behind `fault` fails for the entry, taken on its own. */
  predicate CheckFails(probe: SourceProbe, fault: SourceFault)
  {
    match fault
    case FaultUnreachable => probe.NotReachable?
    case FaultNotInMetadata => probe.Reachable? && probe.metadata.None?
    case FaultReadReplica => probe.Reachable? && probe.metadata == Some(ReadReplica)
    case FaultNotOnline => probe.Reachable? && probe.state != Online
  }

  /** Where each check comes in the source: connect, look up the metadata, check
      the instance type, check the member state. */
  function CheckRank(fault: SourceFault): nat
  {
    match fault
    case FaultUnreachable => 0
    case FaultNotInMetadata => 1
    case FaultReadReplica => 2
    case FaultNotOnline => 3
  }

  /** The checks run on one entry, in the order the source runs them; see
      `FaultPrecedence` for how an earlier fault masks the later checks. */
  function EntryFault(probe: SourceProbe): (r: Option<SourceFault>)
    ensures r.None? <==> probe.Reachable? && probe.metadata == Some(GroupMember) && probe.state == Online
  {
    match probe
    case NotReachable => Some(FaultUnreachable)
    case Reachable(_, md, state) =>
      match md
      case None => Some(FaultNotInMetadata)
      case Some(ReadReplica) => Some(FaultReadReplica)
      case Some(GroupMember) => if state != Online then Some(FaultNotOnline) else None
  }

  /** The reported fault is exactly the earliest check that fails: a fault found
      by one check masks whatever the later checks would report. */
  lemma FaultPrecedence(probe: SourceProbe, f: SourceFault)
    ensures EntryFault(probe) == Some(f) <==>
      CheckFails(probe, f) && forall g :: CheckRank(g) < CheckRank(f) ==> !CheckFails(probe, g)
    ensures probe.NotReachable? ==> EntryFault(probe) == Some(FaultUnreachable)
    ensures probe.Reachable? && probe.metadata.None? ==> EntryFault(probe) == Some(FaultNotInMetadata)
    ensures probe.Reachable? && probe.metadata == Some(ReadReplica) ==> EntryFault(probe) == Some(FaultReadReplica)
  {
    if CheckFails(probe, f) && forall g :: CheckRank(g) < CheckRank(f) ==> !CheckFails(probe, g) {
      assert !CheckFails(probe, FaultUnreachable) || f == FaultUnreachable;
      assert probe.Reachable? ==> !CheckFails(probe, FaultNotInMetadata) || CheckRank(f) <= 1;
      assert probe.Reachable? ==> !CheckFails(probe, FaultReadReplica) || CheckRank(f) <= 2;
    }
  }

  /** The first entry of the list that fails its checks, with the reason. */
  function FirstFault(sources: seq<SourceEntry>, probe: Address -> SourceProbe): (r: Option<(nat, SourceFault)>)
    ensures r.None? <==> forall i :: 0 <= i < |sources| ==> EntryFault(probe(sources[i].address)).None?
    ensures r.Some? ==>
      && r.value.0 < |sources|
      && EntryFault(probe(sources[r.value.0].address)) == Some(r.value.1)
      && forall j :: 0 <= j < r.value.0 ==> EntryFault(probe(sources[j].address)).None?
  {
    if sources == [] then None
    else match EntryFault(probe(sources[0].address))
      case Some(f) => Some((0, f))
      case None =>
        match FirstFault(sources[1..], probe)
        case None => None
        case Some(p) => Some((p.0 + 1, p.1))
  }

  /** The error raised for entry `i` failing with `fault`; the diagnostic names the
      failing entry. */
  function FaultError(sources: seq<SourceEntry>, i: nat, fault: SourceFault): (e: AdminError)
    requires i < |sources|
    ensures e.SourceNotOnline? ==> e.reported == sources[i].address
  {
    var a := sources[i].address;
    match fault
    case FaultUnreachable => SourceUnreachable(a)
    case FaultNotInMetadata => SourceNotInMetadata(a)
    case FaultReadReplica => SourceIsReadReplica(a)
    case FaultNotOnline => SourceNotOnline(a)
  }

  /** As written, the NOT_ONLINE diagnostic names the list's first entry whichever
      entry failed; the other faults name the failing entry. */
  function FaultErrorAsWritten(sources: seq<SourceEntry>, i: nat, fault: SourceFault): AdminError
    requires i < |sources|
  {
    match fault
    case FaultNotOnline => SourceNotOnline(sources[0].address)
    case _ => FaultError(sources, i, fault)
  }

  /** A counterexample to the as-written diagnostic: with an ONLINE first entry and
      an OFFLINE second one, the operator is told the first is not ONLINE. */
  lemma NotOnlineDiagnosticNamesWrongSource()
    ensures
      var sources := [SourceEntry("a:3306", 100), SourceEntry("b:3306", 50)];
      var probe := (addr: Address) =>
        if addr == "a:3306" then Reachable("a:3306", Some(GroupMember), Online)
        else Reachable(addr, Some(GroupMember), Offline);
      && FirstFault(sources, probe) == Some((1, FaultNotOnline))
      && FaultErrorAsWritten(sources, 1, FaultNotOnline) == SourceNotOnline("a:3306")
      && FaultError(sources, 1, FaultNotOnline) == SourceNotOnline("b:3306")
  {
    var sources := [SourceEntry("a:3306", 100), SourceEntry("b:3306", 50)];
    var probe := (addr: Address) =>
      if addr == "a:3306" then Reachable("a:3306", Some(GroupMember), Online)
      else Reachable(addr, Some(GroupMember), Offline);
    assert EntryFault(probe(sources[0].address)) == None;
    assert sources[1..] == [SourceEntry("b:3306", 50)];
    assert EntryFault(probe(sources[1].address)) == Some(FaultNotOnline);
  }

  /** The main source the admission starts from. With "primary" or "secondary" it is
      the Cluster's primary; with a list it is the first entry once every entry has
      passed its checks, and the first failing entry's error otherwise. */
  function MainSource(t: SourceType, primary: Address, sources: seq<SourceEntry>,
                      probe: Address -> SourceProbe): (r: Result<Address, AdminError>)
    requires t == Custom ==> |sources| > 0
    ensures t != Custom ==> r == Ok(primary)
    ensures t == Custom && r.Ok? ==> r.value == sources[0].address
  {
    if t != Custom then Ok(primary)
    else match FirstFault(sources, probe)
      case Some(p) => Err(FaultError(sources, p.0, p.1))
      case None => Ok(sources[0].address)
  }

  /** For a list, the checks run entry by entry and the first failure wins: the
      result fails exactly when some entry fails, with the error of the first such
      entry and nothing about any later entry. */
  lemma CustomFirstFailureWins(primary: Address, sources: seq<SourceEntry>,
                               probe: Address -> SourceProbe, i: nat)
    requires i < |sources|
    requires EntryFault(probe(sources[i].address)).Some?
    requires forall j :: 0 <= j < i ==> EntryFault(probe(sources[j].address)).None?
    ensures MainSource(Custom, primary, sources, probe) ==
      Err(FaultError(sources, i, EntryFault(probe(sources[i].address)).value))
  {
  }

  /** For a fixed iteration order the weights are never read: re-weighting the
      entries while keeping their order changes neither the verdict nor the chosen
      source. (In the program the list is a set ordered by weight, so re-weighting
      can reorder it; that ordering is not part of this model.) */
  lemma {:induction false} MainSourceIgnoresWeights(primary: Address, sources: seq<SourceEntry>,
                                                    weights: seq<int>, probe: Address -> SourceProbe)
    requires |sources| > 0 && |weights| == |sources|
    ensures
      var reweighted := seq(|sources|, i requires 0 <= i < |sources| => SourceEntry(sources[i].address, weights[i]));
      MainSource(Custom, primary, reweighted, probe) == MainSource(Custom, primary, sources, probe)
  {
    var reweighted := seq(|sources|, i requires 0 <= i < |sources| => SourceEntry(sources[i].address, weights[i]));
    FirstFaultIgnoresWeights(sources, reweighted, probe);
  }

  lemma {:induction false} FirstFaultIgnoresWeights(a: seq<SourceEntry>, b: seq<SourceEntry>, probe: Address -> SourceProbe)
    requires |a| == |b| && forall i :: 0 <= i < |a| ==> a[i].address == b[i].address
    ensures FirstFault(a, probe) == FirstFault(b, probe)
  {
    if a != [] {
      FirstFaultIgnoresWeights(a[1..], b[1..], probe);
    }
  }
}

=== FILE: undo_ledger.dfy ===
/** The compensation ("undo") ledger the read-replica admission registers its
    reversal actions in. Each entry holds the data its reversal needs instead of a
    closure. `add` appends to the normal group, `add_back` to a deferred group that
    is unwound after the whole normal group, and `cancel` keeps an entry registered
    but stops it from running. */
module UndoLedger {

  datatype Entry<A> = Entry(name: string, action: A, cancelled: bool)

  /** `front` holds the entries registered with `add`, `back` those registered with
      `add_back`, each in registration order. */
  datatype Ledger<A> = Ledger(front: seq<Entry<A>>, back: seq<Entry<A>>)

  /** Names one registered entry: its group and its position in that group. */
  datatype Handle = Handle(deferred: bool, index: nat)

  function Empty<A>(): Ledger<A>
  {
    Ledger([], [])
  }

  predicate Registered<A>(l: Ledger<A>, h: Handle)
  {
    if h.deferred then h.index < |l.back| else h.index < |l.front|
  }

  function EntryAt<A>(l: Ledger<A>, h: Handle): Entry<A>
    requires Registered(l, h)
  {
    if h.deferred then l.back[h.index] else l.front[h.index]
  }

  /** An entry that unwinding runs: registered and not cancelled. */
  predicate Live<A>(l: Ledger<A>, h: Handle)
  {
    Registered(l, h) && !EntryAt(l, h).cancelled
  }

  /** Registers `action` in the normal group; returns the new ledger and the handle. */
  function Add<A>(l: Ledger<A>, name: string, action: A): (r: (Ledger<A>, Handle))
    ensures r.1 == Handle(false, |l.front|)
    ensures Live(r.0, r.1) && EntryAt(r.0, r.1).action == action
    ensures r.0.back == l.back && r.0.front[..|l.front|] == l.front
  {
    (Ledger(l.front + [Entry(name, action, false)], l.back), Handle(false, |l.front|))
  }

  /** Registers `action` in the deferred group, which unwinds after the normal one. */
  function AddBack<A>(l: Ledger<A>, name: string, action: A): (r: (Ledger<A>, Handle))
    ensures r.1 == Handle(true, |l.back|)
    ensures Live(r.0, r.1) && EntryAt(r.0, r.1).action == action
    ensures r.0.front == l.front && r.0.back[..|l.back|] == l.back
  {
    (Ledger(l.front, l.back + [Entry(name, action, false)]), Handle(true, |l.back|))
  }

  /** Marks the entry `h` as no longer needed; nothing else changes. */
  function Cancel<A>(l: Ledger<A>, h: Handle): (r: Ledger<A>)
    requires Registered(l, h)
    ensures Registered(r, h) && !Live(r, h)
    ensures forall g :: g != h ==> (Registered(r, g) <==> Registered(l, g))
    ensures forall g :: g != h && Registered(l, g) ==> EntryAt(r, g) == EntryAt(l, g)
  {
    var e := EntryAt(l, h);
    if h.deferred then Ledger(l.front, l.back[h.index := e.(cancelled := true)])
    else Ledger(l.front[h.index := e.(cancelled := true)], l.back)
  }

  /** Handles of the live entries among the first `n` of a group, newest first. */
  function LiveNewestFirst<A>(es: seq<Entry<A>>, deferred: bool, n: nat): seq<Handle>
    requires n <= |es|
  {
    if n == 0 then []
    else (if es[n - 1].cancelled then [] else [Handle(deferred, n - 1)])
         + LiveNewestFirst(es, deferred, n - 1)
  }

  /** The order in which unwinding runs the entries: the normal group newest first,
      then the deferred group newest first. */
  function UnwindOrder<A>(l: Ledger<A>): seq<Handle>
  {
    LiveNewestFirst(l.front, false, |l.front|) + LiveNewestFirst(l.back, true, |l.back|)
  }

  /** The actions of the live entries among the first `n` of a group, newest first. */
  function LiveActionsNewestFirst<A>(es: seq<Entry<A>>, n: nat): seq<A>
    requires n <= |es|
  {
    if n == 0 then []
    else (if es[n - 1].cancelled then [] else [es[n - 1].action])
         + LiveActionsNewestFirst(es, n - 1)
  }

  /** The reversal actions unwinding performs, in the order it performs them. */
  function UnwindActions<A>(l: Ledger<A>): seq<A>
  {
    LiveActionsNewestFirst(l.front, |l.front|) + LiveActionsNewestFirst(l.back, |l.back|)
  }

  lemma {:induction false} LiveActionsMatchHandles<A>(es: seq<Entry<A>>, deferred: bool, n: nat)
    requires n <= |es|
    ensures |LiveActionsNewestFirst(es, n)| == |LiveNewestFirst(es, deferred, n)|
    ensures forall i :: 0 <= i < |LiveActionsNewestFirst(es, n)| ==>
      LiveNewestFirst(es, deferred, n)[i].index < |es| &&
      LiveActionsNewestFirst(es, n)[i] == es[LiveNewestFirst(es, deferred, n)[i].index].action
  {
    if n > 0 {
      LiveActionsMatchHandles(es, deferred, n - 1);
    }
  }

  /** The i-th action unwinding performs is the action of the i-th entry of the
      unwind order. */
  lemma UnwindActionsFollowOrder<A>(l: Ledger<A>)
    ensures |UnwindActions(l)| == |UnwindOrder(l)|
    ensures forall i :: 0 <= i < |UnwindOrder(l)| ==>
      Registered(l, UnwindOrder(l)[i]) && UnwindActions(l)[i] == EntryAt(l, UnwindOrder(l)[i]).action
  {
    LiveActionsMatchHandles(l.front, false, |l.front|);
    LiveActionsMatchHandles(l.back, true, |l.back|);
    LiveNewestFirstMembers(l.front, false, |l.front|);
    LiveNewestFirstMembers(l.back, true, |l.back|);
    var f := LiveNewestFirst(l.front, false, |l.front|);
    forall i | 0 <= i < |UnwindOrder(l)|
      ensures Registered(l, UnwindOrder(l)[i]) && UnwindActions(l)[i] == EntryAt(l, UnwindOrder(l)[i]).action
    {
      if i < |f| {
        assert UnwindOrder(l)[i] == f[i] && f[i] in f;
      } else {
        var b := LiveNewestFirst(l.back, true, |l.back|);
        assert UnwindOrder(l)[i] == b[i - |f|] && b[i - |f|] in b;
      }
    }
  }

  lemma {:induction false} LiveNewestFirstMembers<A>(es: seq<Entry<A>>, deferred: bool, n: nat)
    requires n <= |es|
    ensures forall h :: h in LiveNewestFirst(es, deferred, n) <==>
      (h.deferred == deferred && h.index < n && !es[h.index].cancelled)
    ensures forall i, j :: 0 <= i < j < |LiveNewestFirst(es, deferred, n)| ==>
      LiveNewestFirst(es, deferred, n)[i].index > LiveNewestFirst(es, deferred, n)[j].index
    ensures forall h :: h in LiveNewestFirst(es, deferred, n) ==> h.index < n
  {
    if n > 0 {
      LiveNewestFirstMembers(es, deferred, n - 1);
    }
  }

  /** Unwinding runs exactly the live entries. */
  lemma UnwindContainsOnlyLive<A>(l: Ledger<A>)
    ensures forall h :: h in UnwindOrder(l) <==> Live(l, h)
  {
    LiveNewestFirstMembers(l.front, false, |l.front|);
    LiveNewestFirstMembers(l.back, true, |l.back|);
  }

  /** Ordering law: every deferred entry runs after every normal entry, and within a
      group an entry registered later runs earlier. No entry runs twice. */
  lemma UnwindOrderLaw<A>(l: Ledger<A>)
    ensures forall i, j :: 0 <= i < j < |UnwindOrder(l)| && UnwindOrder(l)[i].deferred ==>
      UnwindOrder(l)[j].deferred
    ensures forall i, j :: (0 <= i < j < |UnwindOrder(l)| &&
      UnwindOrder(l)[i].deferred == UnwindOrder(l)[j].deferred) ==>
      UnwindOrder(l)[i].index > UnwindOrder(l)[j].index
    ensures forall i, j :: 0 <= i < j < |UnwindOrder(l)| ==> UnwindOrder(l)[i] != UnwindOrder(l)[j]
  {
    var f := LiveNewestFirst(l.front, false, |l.front|);
    var b := LiveNewestFirst(l.back, true, |l.back|);
    LiveNewestFirstMembers(l.front, false, |l.front|);
    LiveNewestFirstMembers(l.back, true, |l.back|);
    var u := UnwindOrder(l);
    assert u == f + b;
    forall i, j | 0 <= i < j < |u|
      ensures u[i].deferred ==> u[j].deferred
      ensures u[i].deferred == u[j].deferred ==> u[i].index > u[j].index
    {
      if j < |f| {
        assert u[i] == f[i] && u[j] == f[j];
      } else if i >= |f| {
        assert u[i] == b[i - |f|] && u[j] == b[j - |f|];
      } else {
        assert u[i] == f[i] && u[i] in f;
        assert u[j] == b[j - |f|] && u[j] in b;
      }
    }
  }

  /** Cancellation law: a cancelled entry never runs, whatever happens afterwards to
      the rest of the ledger; every other entry keeps its place in the run. */
  lemma CancelledNeverRuns<A>(l: Ledger<A>, h: Handle)
    requires Registered(l, h)
    ensures h !in UnwindOrder(Cancel(l, h))
    ensures forall g :: g != h ==> (g in UnwindOrder(Cancel(l, h)) <==> g in UnwindOrder(l))
  {
    UnwindContainsOnlyLive(l);
    UnwindContainsOnlyLive(Cancel(l, h));
  }

  /** A new normal entry runs before everything already registered. */
  lemma {:induction false} AddRunsFirst<A>(l: Ledger<A>, name: string, action: A)
    ensures UnwindOrder(Add(l, name, action).0) == [Handle(false, |l.front|)] + UnwindOrder(l)
    ensures UnwindActions(Add(l, name, action).0) == [action] + UnwindActions(l)
  {
    var l' := Add(l, name, action).0;
    LiveNewestFirstPrefix(l.front, l'.front, false, |l.front|);
    LiveActionsPrefix(l.front, l'.front, |l.front|);
  }

  /** A new deferred entry runs after every normal entry and before the deferred
      entries registered earlier. */
  lemma {:induction false} AddBackRunsAfterNormal<A>(l: Ledger<A>, name: string, action: A)
    ensures UnwindOrder(AddBack(l, name, action).0) ==
      LiveNewestFirst(l.front, false, |l.front|) + [Handle(true, |l.back|)]
      + LiveNewestFirst(l.back, true, |l.back|)
    ensures UnwindActions(AddBack(l, name, action).0) ==
      LiveActionsNewestFirst(l.front, |l.front|) + [action] + LiveActionsNewestFirst(l.back, |l.back|)
  {
    var l' := AddBack(l, name, action).0;
    LiveNewestFirstPrefix(l.back, l'.back, true, |l.back|);
    LiveActionsPrefix(l.back, l'.back, |l.back|);
  }

  /** No deferred entry would run. */
  predicate DeferredIdle<A>(l: Ledger<A>)
  {
    LiveActionsNewestFirst(l.back, |l.back|) == []
  }

  lemma {:induction false} LiveActionsPrefix<A>(es: seq<Entry<A>>, es': seq<Entry<A>>, n: nat)
    requires n <= |es| && n <= |es'| && es[..n] == es'[..n]
    ensures LiveActionsNewestFirst(es, n) == LiveActionsNewestFirst(es', n)
  {
    if n > 0 {
      assert es[n - 1] == es[..n][n - 1] == es'[..n][n - 1] == es'[n - 1];
      assert es[..n - 1] == es[..n][..n - 1];
      assert es'[..n - 1] == es'[..n][..n - 1];
      LiveActionsPrefix(es, es', n - 1);
    }
  }

  /** Unwinding reads only the first `n` entries of a group, so extending the group
      leaves that part of the order unchanged. */
  lemma {:induction false} LiveNewestFirstPrefix<A>(es: seq<Entry<A>>, es': seq<Entry<A>>, deferred: bool, n: nat)
    requires n <= |es| && n <= |es'| && es[..n] == es'[..n]
    ensures LiveNewestFirst(es, deferred, n) == LiveNewestFirst(es', deferred, n)
  {
    if n > 0 {
      assert es[n - 1] == es[..n][n - 1] == es'[..n][n - 1] == es'[n - 1];
      assert es[..n - 1] == es[..n][..n - 1];
      assert es'[..n - 1] == es'[..n][..n - 1];
      LiveNewestFirstPrefix(es, es', deferred, n - 1);
    }
  }

}
